=== FILE: README.md ===
# dcamj core, modelled in Dafny

A model of the pure logic inside the dcamj camera library. The library is a thin Java
layer over a vendor camera API. The model covers three parts:

- **Device configuration** (`dcamj2.DcamDevice`). Widths and heights snap to multiples of 4
  (`roundto4`). The model covers the centred region of interest (ROI), binning, defect
  correction, and the named trigger presets. Each operation is an ordered sequence of
  property writes. No write is atomic, and a rejected write does not stop the ones after it.
- **The property registry** (`dcamj.DcamProperties`):
  - discovery of the supported properties into a name-keyed map of descriptors;
  - the descriptor getters;
  - value reads and writes by id and by name, with NaN modelled as `None`;
  - the exposure wrappers;
  - the older centred-ROI helper.
- **The image sequence** (`dcamj2.DcamImageSequence`). It holds `depth` planes of
  `bytesPerPixel * width * height` bytes. The model covers:
  - fragmented and contiguous allocation, and the wrapping constructor;
  - per-plane addressing;
  - consolidation into one buffer, as concatenation in plane order;
  - single-plane extraction;
  - the freed flag and the time stamp.

The camera is the `PropertyStore` module. It holds a map from property id to value, an
append-only log of the writes issued, and an append-only error list. The model assumes
that a failed vendor call appends exactly one record to this list and a successful one
appends none, and that the device and its property layer share the one list.

What the device does with a write is decided by a `Responder` supplied by the caller:

- `None` means a vendor error.
- `Some(v)` means the device now holds `v`, which may differ from the request when the
  device snaps it.

`Faithful(respond)` is the ideal device that stores exactly what it is sent. The presets are
proved equal to one flat reference write list each (`SetAll` of that list). Final values
follow from the overwrite semantics `Overwrite`.

Files:

| file | module | contents |
|---|---|---|
| `options.dfy` | `Options`, `JavaArith` | `Option`; Java `int`/`long` ranges; Java's truncating division |
| `property_store.dfy` | `PropertyStore` | property ids and values, the device record, single and sequenced writes, reads |
| `dcam_device.dfy` | `DcamDevice` | `roundto4`, centred ROI, binning, defect correction, trigger presets |
| `dcam_properties.dfy` | `DcamProperties` | discovery, descriptor getters, value access, exposure, older ROI helper |
| `dcam_image_sequence.dfy` | `DcamImageSequence` | image-sequence memory layout and lifecycle |

Behaviour of the code worth noting:

- The older registry ROI helper does not round its offsets to multiples of 4.
  - `src/dcamj/DcamProperties.java:287-288` computes `1024 - w/2` with truncating `int`
    division.
  - `DcamProperties.OldCenteredOffsetUnaligned` shows an offset off the 4-pixel grid.
- The device's `setCenteredROI` does not call the registry helper. It rounds the sizes
  and the offsets itself and returns the AND of its five writes
  (`src/dcamj2/DcamDevice.java:136-168`).
- Discovery's result does not depend on attribute fetches, whose success is fixed at `true`
  (`src/dcamj/DcamProperties.java:72`). It is false only when a name fetch fails.
- `DcamImageSequence` does not check the freed flag before handing plane access and
  consolidation to the fragmented memory (`src/dcamj2/DcamImageSequence.java:232`,
  `:263`). What that memory library does with freed memory is not modelled.

## Model

| member | source | states |
|---|---|---|
| JavaArith.JavaDiv | src/dcamj/DcamProperties.java:287-288 | Java `int` division truncates toward zero: the remainder has the sign of the dividend and is smaller than the divisor |
| JavaArith.JavaHalfOfEven | src/dcamj2/DcamDevice.java:139-140 | halving an even size is exact, so truncation and floor agree on the ROI offsets |
| PropertyStore.SetAll | src/dcamj2/DcamDevice.java:141-168 | every write is issued, in order, even after a rejection; the result is true iff no error was appended; at most one error per write; only the written properties can change; earlier errors are kept |
| PropertyStore.SetAllResultIsAnd | src/dcamj2/DcamDevice.java:141-168 | the result is the AND of the device's answers: true iff every write was accepted in the state the writes before it left |
| PropertyStore.SetAllAppend | src/dcamj2/DcamDevice.java:277-285 | running two write sequences one after the other is running their concatenation, and succeeds iff both parts succeed |
| PropertyStore.SetAllFaithful | src/dcamj2/DcamDevice.java:239-254 | on a device that accepts everything, a write sequence succeeds and leaves each property with its last written value |
| PropertyStore.OverwriteLastWins | src/dcamj2/DcamDevice.java:277-285 | when a property is written more than once (the connector in the external presets), the last write decides its value |
| PropertyStore.SetThenGet | src/dcamj/DcamProperties.java:176-191 | a read after an accepted write returns the value the device settled on, which is the written value on a faithful device |
| PropertyStore.GetValueReadsOnly | src/dcamj/DcamProperties.java:176-191 | a read changes neither values nor writes; it fails (NaN) iff the device holds no value, and then records one error |
| PropertyStore.SetAndGetEffective | src/dcamj/DcamProperties.java:237-255 | set-and-get returns the device's effective value, which later reads report; only the written property changes |
| DcamDevice.RoundTo4 | src/dcamj2/DcamDevice.java:371-374 | the result is a multiple of 4 within distance 2 of the input, above it on a tie |
| DcamDevice.RoundTo4Nearest | src/dcamj2/DcamDevice.java:363-374 | no multiple of 4 is closer to the input than the rounded value |
| DcamDevice.RoundTo4TiesUp | src/dcamj2/DcamDevice.java:373 | a value exactly between two multiples of 4 rounds up, as `Math.round` rounds halves up |
| DcamDevice.RoundTo4Idempotent | src/dcamj2/DcamDevice.java:371-374 | multiples of 4 are unchanged, so rounding twice equals rounding once |
| DcamDevice.RoundTo4Monotone | src/dcamj2/DcamDevice.java:371-374 | rounding preserves the order of two sizes |
| DcamDevice.CenteredOffset | src/dcamj2/DcamDevice.java:139-140 | for an aligned size the rounded offset `roundto4(1024 - size/2)` is aligned and centres the size in the 2048-pixel window to within 2 pixels |
| DcamDevice.CenteredRoi | src/dcamj2/DcamDevice.java:136-140 | sizes are the rounded request; offsets are multiples of 4; each axis is centred on pixel 1024 or 1026 |
| DcamDevice.SetCenteredROI | src/dcamj2/DcamDevice.java:133-169 | five writes are issued, with no early exit; the result is true iff the device accepted each of them in the state the earlier ones left, which is iff no error was logged; only the five sub-array properties can change |
| DcamDevice.CenteredRoiWritesTouch | src/dcamj2/DcamDevice.java:141-157 | the five ROI writes touch exactly the four geometry properties and the sub-array mode |
| DcamDevice.CenteredRoiWriteOrder | src/dcamj2/DcamDevice.java:141-157 | the writes go out as h-offset, v-offset, h-size, v-size, then sub-array mode 2 |
| DcamDevice.CenteredRoiExample | src/dcamj2/DcamDevice.java:136-140 | a 1000 x 800 request gives offsets 524 and 624 with sizes unchanged |
| DcamDevice.SetCenteredROIFaithful | src/dcamj2/DcamDevice.java:133-169 | on a faithful device the ROI change succeeds and the five sub-array properties hold the computed geometry and mode 2 |
| DcamDevice.SetMode | src/dcamj2/DcamDevice.java:241-247 | a mode write is one logged write; it changes only its property and logs an error iff rejected |
| DcamDevice.SetNumber | src/dcamj2/DcamDevice.java:249-253 | a numeric write is one logged write; it changes only its property and logs an error iff rejected |
| DcamDevice.SetBinning | src/dcamj2/DcamDevice.java:226-234 | binning is one write of the bin size; the result is that write's acceptance; nothing else changes |
| DcamDevice.SetInputTriggerToInternal | src/dcamj2/DcamDevice.java:268-272 | only the trigger source is written (Internal), without the defaults; an accepted write stores the device's value, a rejected one changes nothing and logs an error |
| DcamDevice.SetInputTriggerToSoftware | src/dcamj2/DcamDevice.java:316-320 | only the trigger source is written (Software), without the defaults; an accepted write stores the device's value, a rejected one changes nothing and logs an error |
| DcamDevice.SetDefectCorrectionMode | src/dcamj2/DcamDevice.java:356-361 | one write to the defect-correction mode, On iff the flag is true and Off iff it is false; nothing else changes |
| DcamDevice.SetInputTriggerDefaults | src/dcamj2/DcamDevice.java:239-254 | the input defaults log their five writes whatever the device answers and change no property outside the five input-trigger properties; their order and faithful effect are `InputTriggerDefaultsFlat` and `InputTriggerDefaultsEffect` |
| DcamDevice.SetOutputTriggerDefaults | src/dcamj2/DcamDevice.java:259-263 | the output defaults are one write of connector BNC; only the connector can change, and an error is logged iff the device rejects it |
| DcamDevice.SetOutputTriggerToExposure | src/dcamj2/DcamDevice.java:325-334 | logs connector BNC, output polarity Positive and kind Exposure, and changes nothing outside those three properties; the faithful effect is `OutputTriggerPresets` |
| DcamDevice.SetOutputTriggerToProgrammable | src/dcamj2/DcamDevice.java:339-348 | logs connector BNC, output polarity Positive and kind Programmable, and changes nothing outside those three properties; the faithful effect is `OutputTriggerPresets` |
| DcamDevice.SetInputTriggerToExternal | src/dcamj2/DcamDevice.java:277-311 | the body shared by the external presets logs its ten writes (defaults, source External, the given trigger-active value, output to exposure) and changes only the nine trigger properties |
| DcamDevice.SetInputTriggerToExternalEdge | src/dcamj2/DcamDevice.java:277-285 | the ten external-preset writes with trigger-active Edge as the seventh; only the nine trigger properties can change |
| DcamDevice.SetInputTriggerToExternalLevel | src/dcamj2/DcamDevice.java:290-298 | the ten external-preset writes with trigger-active Level as the seventh; only the nine trigger properties can change |
| DcamDevice.SetInputTriggerToExternalFastEdge | src/dcamj2/DcamDevice.java:303-311 | the ten external-preset writes with trigger-active sync-readout as the seventh; only the nine trigger properties can change |
| DcamDevice.InputTriggerDefaultsFlat | src/dcamj2/DcamDevice.java:239-254 | the input-defaults preset issues mode Normal, polarity Positive, connector BNC, times 1, delay 0, in that order |
| DcamDevice.InputTriggerDefaultsEffect | src/dcamj2/DcamDevice.java:239-254 | the input defaults touch only those five properties; on a faithful device the five defaults are in place afterwards |
| DcamDevice.OutputTriggerFlat | src/dcamj2/DcamDevice.java:325-348 | each output preset issues connector BNC, output polarity Positive, then its kind, in that order |
| DcamDevice.OutputTriggerEffect | src/dcamj2/DcamDevice.java:325-348 | an output write list touches only the connector and the two output-trigger properties; on a faithful device they hold BNC, Positive and the kind |
| DcamDevice.OutputTriggerPresets | src/dcamj2/DcamDevice.java:325-348 | the exposure and programmable presets log their three writes, change nothing else, and on a faithful device leave the output kind at Exposure or Programmable respectively |
| DcamDevice.OutputPresetsDifferOnlyInKind | src/dcamj2/DcamDevice.java:325-348 | the two output presets issue the same three writes except the final kind value |
| DcamDevice.ExternalTriggerFlat | src/dcamj2/DcamDevice.java:277-311 | each external preset is the input defaults, source External, its trigger-active value, then the output-to-exposure preset, as one ten-write sequence |
| DcamDevice.ExternalTriggerFrame | src/dcamj2/DcamDevice.java:277-311 | an external preset issues all ten writes whatever the device answers; it touches only trigger properties; it logs no error iff the device accepted each of the ten writes in the state the earlier ones left |
| DcamDevice.ExternalTriggerFaithful | src/dcamj2/DcamDevice.java:277-311 | on a faithful device an external preset leaves all nine trigger properties as the preset names them, with the requested trigger-active value |
| DcamDevice.ExternalPresetsDifferOnlyInActive | src/dcamj2/DcamDevice.java:277-311 | the edge, level and fast-edge presets issue identical ten-write sequences except the trigger-active write |
| DcamProperties.TypeTagOf | src/dcamj/DcamProperties.java:90-101 | the type tag is long iff LONG is set; real iff REAL is set without LONG; mode iff MODE is set without LONG and REAL; none otherwise |
| DcamProperties.FirstUnit | src/dcamj/DcamProperties.java:106-110 | the unit is the first unit flag in iteration order, or none iff no unit flag is present |
| DcamProperties.NamedPrefix | src/dcamj/DcamProperties.java:56-59 | the enumeration up to the first failed name fetch: every entry before it has a name, and the entry at it has none |
| DcamProperties.UpdatePropertyList | src/dcamj/DcamProperties.java:33-124 | the loop with its early break computes exactly the reference fold `Discover`, starting from the existing map |
| DcamProperties.DiscoverOk | src/dcamj/DcamProperties.java:56-59 | discovery reports success iff no name fetch failed |
| DcamProperties.DiscoverStopsAtNameFailure | src/dcamj/DcamProperties.java:56-59 | entries from the failing one onward are never inserted; earlier insertions are kept |
| DcamProperties.DiscoverNamed | src/dcamj/DcamProperties.java:25-119 | the map's keys become the old keys plus the names seen; a repeated name holds its last entry's descriptor; old entries not re-seen survive, because the map is never cleared |
| DcamProperties.DiscoverIgnoresAttributeStatus | src/dcamj/DcamProperties.java:70-73 | the status of the attribute fetch changes neither the map nor the result |
| DcamProperties.DiscoverDerived | src/dcamj/DcamProperties.java:87-110 | every inserted descriptor's tag, writable and readable fields agree with its attribute flags |
| DcamProperties.DiscoveredGetters | src/dcamj/DcamProperties.java:103-174 | after discovery the getters report min, max, step, default, long/real, writable and readable as derived from the last entry with that name |
| DcamProperties.GetProperty | src/dcamj/DcamProperties.java:131-134 | the descriptor stored under the name, or nothing iff the name is unknown |
| DcamProperties.GetPropertyDefaultValue | src/dcamj/DcamProperties.java:136-139 | the default of the named descriptor; fails iff the name is unknown, where the source throws |
| DcamProperties.GetPropertyMinValue | src/dcamj/DcamProperties.java:141-144 | the minimum of the named descriptor; fails iff the name is unknown |
| DcamProperties.GetPropertyMaxValue | src/dcamj/DcamProperties.java:146-149 | the maximum of the named descriptor; fails iff the name is unknown |
| DcamProperties.GetPropertySteps | src/dcamj/DcamProperties.java:151-154 | the step of the named descriptor; fails iff the name is unknown |
| DcamProperties.IsPropertyWritable | src/dcamj/DcamProperties.java:156-159 | true iff the WRITABLE flag is set; fails iff the name is unknown |
| DcamProperties.IsPropertyReadable | src/dcamj/DcamProperties.java:161-164 | true iff the READABLE flag is set; fails iff the name is unknown |
| DcamProperties.IsPropertyReal | src/dcamj/DcamProperties.java:166-169 | true iff REAL is set and LONG is not; fails iff the name is unknown |
| DcamProperties.IsPropertyLong | src/dcamj/DcamProperties.java:171-174 | true iff LONG is set; fails iff the name is unknown |
| DcamProperties.GetPropertyValue | src/dcamj/DcamProperties.java:176-191 | the device's value, or NaN (`None`) with one recorded error iff the device holds none; values and writes are unchanged |
| DcamProperties.GetPropertyValueByName | src/dcamj/DcamProperties.java:193-210 | reads the id recorded in the named descriptor; fails iff the name is unknown |
| DcamProperties.SetPropertyValue | src/dcamj/DcamProperties.java:225-235 | one logged write; true iff the device accepted it, which is iff no error was recorded; only that property can change |
| DcamProperties.SetPropertyValueByName | src/dcamj/DcamProperties.java:212-223 | writes the id recorded in the named descriptor; fails iff the name is unknown |
| DcamProperties.SetThenGetByName | src/dcamj/DcamProperties.java:193-223 | on a faithful device, a write by name followed by a read by name returns the written value |
| DcamProperties.SetAndGetPropertyValue | src/dcamj/DcamProperties.java:237-255 | returns the device's effective value, not the request, or NaN with a recorded error; the value is stored; only that property can change |
| DcamProperties.GetExposure | src/dcamj/DcamProperties.java:269-272 | the exposure read returns the stored exposure, or NaN (`None`) with one recorded error iff the device holds none; values and writes are unchanged |
| DcamProperties.SetExposure | src/dcamj/DcamProperties.java:274-277 | one logged write of the exposure; an error is recorded iff the device rejects it; no other property can change |
| DcamProperties.SetAndGetExposure | src/dcamj/DcamProperties.java:279-282 | returns the device's effective exposure, which is then stored, or NaN when rejected; no other property can change |
| DcamProperties.ExposureRoundTrip | src/dcamj/DcamProperties.java:269-277 | on a faithful device an exposure set followed by an exposure get returns the value set, and no other property changes |
| DcamProperties.SetAndGetExposureIsEffective | src/dcamj/DcamProperties.java:269-282 | exposure set-and-get returns the device's effective exposure, which a later exposure read reports |
| DcamProperties.SetAndGetExposureSnaps | src/dcamj/DcamProperties.java:279-282 | a device that snaps a request of 0.3 to 0.5 makes set-and-get return 0.5 |
| DcamProperties.OldCenteredOffset | src/dcamj/DcamProperties.java:287-288 | `1024 - size/2` with truncating division: exactly centred for even sizes; for odd sizes the offset is rounded toward 1024, so `2*pos + size` is 2049 for positive and 2047 for negative sizes; it always fits in an `int` |
| DcamProperties.SetCenteredROI | src/dcamj/DcamProperties.java:285-295 | the older helper issues the five sub-array writes in the same order as the device's, with unrounded offsets and sizes |
| DcamProperties.OldCenteredOffsetTruncates | src/dcamj/DcamProperties.java:287 | for width -3 the offset is 1025, where floor division would give 1026 |
| DcamProperties.OldCenteredOffsetUnaligned | src/dcamj/DcamProperties.java:287 | a width of 1002 gives offset 523, which is off the 4-pixel grid |
| DcamImageSequence.ConcatLength | src/dcamj2/DcamImageSequence.java:271-280 | the consolidated bytes are exactly as many as the summed fragment sizes |
| DcamImageSequence.UniformTotalSize | src/dcamj2/DcamImageSequence.java:92-116 | `depth` planes of equal size hold `depth * planeSize` bytes |
| DcamImageSequence.FragmentAt | src/dcamj2/DcamImageSequence.java:261-264 | in the consolidated bytes, fragment `i` starts right after the bytes of the fragments before it and is copied unchanged |
| DcamImageSequence.PlaneAtOffset | src/dcamj2/DcamImageSequence.java:230-233 | in the consolidated bytes, plane `i` occupies `[i * size, (i + 1) * size)` and equals fragment `i` |
| DcamImageSequence.Split | src/dcamj2/DcamImageSequence.java:114-115 | splitting a block yields `n` fragments of equal size |
| DcamImageSequence.SplitConcat | src/dcamj2/DcamImageSequence.java:106-116 | the fragments of a split block, laid end to end, are the block |
| DcamImageSequence.AllocateFragmented | src/dcamj2/DcamImageSequence.java:76-105 | the shape is stored as given; one fresh plane of `bpp * w * h` bytes per loop step, so `depth` fragments and `bpp * w * h * depth` bytes, and none at all for a negative depth; the memory matches the shape iff the depth is not negative; not freed; time stamp 0 |
| DcamImageSequence.AllocateContiguous | src/dcamj2/DcamImageSequence.java:106-118 | `depth` fragments that together are one fresh block of `bpp * w * h * depth` bytes; same count and size as fragmented allocation; not freed; time stamp 0 |
| DcamImageSequence.ContiguousShape | src/dcamj2/DcamImageSequence.java:106-116 | contiguous allocation gives `depth` fragments of one plane each, the same shape as fragmented allocation |
| DcamImageSequence.Wrap | src/dcamj2/DcamImageSequence.java:135-146 | the wrapped memory, bytes per pixel, width, height and depth are stored exactly as given, and the time stamp starts at 0 |
| DcamImageSequence.WrapChecksNothing | src/dcamj2/DcamImageSequence.java:135-146 | wrapping accepts a shape that does not match its memory (depth 3 over one fragment) |
| DcamImageSequence.MemoryForPlane | src/dcamj2/DcamImageSequence.java:230-233 | fragment `i`, or a failure iff `i` is outside the fragment list |
| DcamImageSequence.NumberOfFragments | src/dcamj2/DcamImageSequence.java:271-274 | the plane indices `getMemoryForPlane` accepts are exactly those below the fragment count |
| DcamImageSequence.SizeInBytes | src/dcamj2/DcamImageSequence.java:276-280 | the size is the length of all fragments laid end to end, which is what consolidation copies |
| DcamImageSequence.ConsistentSize | src/dcamj2/DcamImageSequence.java:276-280 | a sequence whose memory matches its shape has size `bpp * w * h * depth` |
| DcamImageSequence.ConsolidateTo | src/dcamj2/DcamImageSequence.java:261-264 | the destination starts with all fragments concatenated in plane order; the bytes after them are unchanged |
| DcamImageSequence.ConsolidatedPlane | src/dcamj2/DcamImageSequence.java:230-264 | in a consolidated copy, plane `i` sits at offset `i * bpp * w * h` and equals `getMemoryForPlane(i)` |
| DcamImageSequence.SinglePlaneAsWritten | src/dcamj2/DcamImageSequence.java:243-253 | wraps only fragment `i` with depth 1, the parent's bytes per pixel and width, and the parent's depth as the height; time stamp 0; fails iff `i` is out of range |
| DcamImageSequence.SinglePlaneAsWrittenMismatch | src/dcamj2/DcamImageSequence.java:250 | for a consistent 2-byte 4 x 4 x 3 parent, the single plane claims height 3 over a 32-byte fragment, so its shape does not match its memory |
| DcamImageSequence.SinglePlane | src/dcamj2/DcamImageSequence.java:243-253 | wraps only fragment `i` with depth 1 and the parent's bytes per pixel, width and height; time stamp 0; fails iff `i` is out of range |
| DcamImageSequence.SinglePlaneConsistent | src/dcamj2/DcamImageSequence.java:243-253 | with the parent's height, the single plane is consistent, holds one plane of bytes and consolidates to exactly fragment `i` |
| DcamImageSequence.Free | src/dcamj2/DcamImageSequence.java:282-286 | after `free()` the sequence reports freed; fragments, shape and time stamp are kept |
| DcamImageSequence.IsFree | src/dcamj2/DcamImageSequence.java:288-292 | reports freed iff freeing the sequence again would change nothing |
| DcamImageSequence.FreeIdempotent | src/dcamj2/DcamImageSequence.java:282-292 | freeing twice is the same as freeing once, and `isFree()` stays true |
| DcamImageSequence.SetTimeStampInNs | src/dcamj2/DcamImageSequence.java:194-197 | the getter then returns the value set; memory and shape are unchanged |
| DcamImageSequence.GetTimeStampInNs | src/dcamj2/DcamImageSequence.java:204-207 | the getter returns the one stamp that setting again leaves the sequence unchanged |
| DcamImageSequence.TimeStampLastWins | src/dcamj2/DcamImageSequence.java:194-207 | after two sets the getter returns the later value |

## Left out

- Vendor calls with no local logic are not modelled. They are `open`, `close`,
  `getDeviceString`, `displayDeviceInfo`, `startContinuous`, `startSequence`,
  `triggerOneAcquisition`, `stop`, `showPanel`, `getStatus` and `getTransferInfo`, plus the
  struct marshalling around them. Device answers are the `Responder` parameter instead.
- The lazy getters (`getProperties`, `getBufferControl`, `getDcamWait`) are plumbing. The
  model calls the property layer directly.
- `listAllProperties`, `toString` and `getPropertyList` are printing and an unordered view
  of the map.
- A write changes at most the property it names: the device's answer is the value stored
  for that property only. A camera that changes dependent properties on a write (readout
  geometry after a binning or sub-array change, say) is not expressible. Every "nothing
  else changes" frame in the contracts is therefore an assumption about the device, not a
  guarantee of the Java code, which cannot see what the vendor call does.
- The attribute type flags `DCAMPROP_TYPE_LONG`, `DCAMPROP_TYPE_REAL` and `DCAMPROP_TYPE_MODE` are modelled as
  independent bits. Their vendor values are not part of this model; if the vendor encodes
  the type as a multi-bit field, a bit test for one type can also hold for another, and
  `DcamProperties.TypeTagOf` would differ for such properties.
- Property values are Dafny `real`s, not doubles. Device reads cannot return NaN; NaN
  appears only as the `None` of a failed read.
- Vendor read failures are abstracted. `GetValue` fails exactly when the device holds no
  value for the property.
- The `(long)` narrowing in `getWidth`, `getHeight`, `getX` and `getY` is floating point
  and is not modelled.
- DcamDevice.RoundTo4: assumes `Math.round(x * 0.25)` is exact. Once `x` is too large to
  represent the double `x * 0.25` exactly, the Java result can differ.
- 64-bit wrap-around of the Java sizes is not modelled. The same applies to the size
  products `bpp * w * h * depth`, and to the 32-bit `int` loop counter in the fragmented
  constructor (`src/dcamj2/DcamImageSequence.java:95`), which wraps before reaching a
  depth above 2^31-1, so there Java loops forever while `AllocateFragmented` terminates.
- The vendor's numeric property and mode codes are not part of this model. Properties and
  mode values are enumerations. A discovered property is reported under its named
  identifier when it has one, otherwise as `Raw(code)`.
- `dcamj2.DcamProperties` is not part of this model. Its double and mode setters, used by
  every device preset, are modelled as one device write each, logged and checked like
  `dcamj.DcamProperties.setPropertyValue`.
- Discovery does not record the error of a failed name fetch in the error list.
- The 64-byte name buffer, and any truncation of longer names, is not modelled.
- An attribute fetch that fails is represented by whatever record it left behind. The
  descriptor is built from it unchanged, as in the source.
- `adjustWidthHeight` and `getBinning` are not part of this model.
  `DcamImageSequence.AllocateFragmented` and `DcamImageSequence.AllocateContiguous` take
  the adjusted width and height as inputs.
- Page alignment, off-heap allocation and BridJ pointers are not modelled, and neither is
  `getPointerForPlane`. Fresh memory is modelled as zero bytes.
- DcamImageSequence.AllocateFragmented: bytes per pixel, width and height are taken as
  non-negative. A negative plane size is passed to the off-heap allocator, which is not
  part of this model. A negative depth is modelled: no fragments are allocated.
- DcamImageSequence.AllocateContiguous: bytes per pixel, width, height and depth are taken
  as non-negative. A negative product is passed to the off-heap allocator and to
  `FragmentedMemory.split`, neither of which is part of this model.
- `FragmentedMemory.split` is modelled by its effect: `depth` equal consecutive slices.
  With depth 0 it yields no fragments.
- DcamImageSequence.ConsolidateTo: requires the destination to hold the whole sequence.
  What the library copy routine does with a shorter destination is not part of this model.
- DcamImageSequence.SinglePlaneAsWritten: the single-plane sequence shares its fragment
  with the parent, so freeing one frees the other's plane. The model copies the parent's
  freed flag and does not model this aliasing.
- `complainIfFreed` (`src/dcamj2/DcamImageSequence.java:295-298`) is delegated to the
  fragmented memory and is declared to throw `FreedException`; it and any access check inside the
  memory library after `free()` are not modelled.
- DcamImageSequence.MemoryForPlane: for a freed sequence the model returns the fragment's
  bytes, where the Java may throw from the memory library's `get`.
- DcamImageSequence.ConsolidateTo: for a freed sequence the model copies the bytes, where
  the Java may throw from the memory library's consolidated copy.
- `DcamBase.addErrorToListAndCheckHasSucceeded` is not part of this model. It is assumed
  to append one record exactly when the vendor call fails, to one list shared by the
  device and its property layer. Every clause that ties a result or a failure to the error
  list (`SetAll`, `SetMode`, `SetNumber`, `SetCenteredROI`, `SetPropertyValue`,
  `SetExposure`, `GetPropertyValue`, `GetExposure`, `ExternalTriggerFrame`) rests on this.
- The `volatile` fields and cross-thread hand-off of planes are concurrency and are not
  modelled.

## Findings

| source | as written | input that shows it | evidently intended | confidence | as-written member | corrected member |
|---|---|---|---|---|---|---|
| src/dcamj2/DcamImageSequence.java:250 | `getSinglePlaneImageSequence` passes `getDepth()` as the height of the single-plane sequence | a 2-byte, 4 x 4 x 3 sequence: plane 0 gets height 3, so its shape claims 24 bytes over a 32-byte fragment | pass `getHeight()`, so the plane keeps the parent's width x height | not executed | DcamImageSequence.SinglePlaneAsWritten, DcamImageSequence.SinglePlaneAsWrittenMismatch | DcamImageSequence.SinglePlane, DcamImageSequence.SinglePlaneConsistent |

=== FILE: dcam_device.dfy ===
/** The camera device's configuration operations: centred region of interest
    with alignment to multiples of 4, binning, defect correction, and the
    named trigger presets.  Every operation is an ordered sequence of property
    writes issued to the `PropertyStore` device; none of them is atomic. */
module DcamDevice {
  import opened Options
  import opened JavaArith
  import opened PropertyStore

  /** Snaps a width or height to the closest multiple of 4; a value exactly
      between two multiples goes to the upper one, as `Math.round` rounds
      halves up. */
  function RoundTo4(x: int): (r: int)
    ensures r % 4 == 0
    ensures -2 < r - x <= 2
  {
    4 * ((x + 2) / 4)
  }

  /** No multiple of 4 is closer to `x` than `RoundTo4(x)`. */
  lemma RoundTo4Nearest(x: int, m: int)
    requires m % 4 == 0
    ensures Abs(RoundTo4(x) - x) <= Abs(m - x)
  {
  }

  function Abs(x: int): nat
  {
    if x < 0 then -x else x
  }

  /** Ties round up: a value 2 above a multiple of 4 goes to the next one. */
  lemma RoundTo4TiesUp(x: int)
    requires x % 4 == 2
    ensures RoundTo4(x) == x + 2
  {
  }

  /** Rounding leaves multiples of 4 alone, so rounding twice is rounding once. */
  lemma RoundTo4Idempotent(x: int)
    ensures x % 4 == 0 ==> RoundTo4(x) == x
    ensures RoundTo4(RoundTo4(x)) == RoundTo4(x)
  {
  }

  /** Rounding never reverses the order of two sizes. */
  lemma RoundTo4Monotone(x: int, y: int)
    requires x <= y
    ensures RoundTo4(x) <= RoundTo4(y)
  {
  }

  /** A sub-array geometry: offsets and sizes on the sensor. */
  datatype Roi = Roi(hpos: int, vpos: int, hsize: int, vsize: int)

  /** The offset that centres a size already aligned to 4 in a 2048-pixel
      window is itself aligned, and misses the exact centre by 0 or 2 pixels. */
  function CenteredOffset(size: int): (pos: int)
    requires size % 4 == 0
    ensures pos % 4 == 0
    ensures pos + size / 2 == 1024 || pos + size / 2 == 1026
  {
    var k := size / 4;
    assert size == 4 * k;
    assert size / 2 == 2 * k;
    JavaHalfOfEven(size);
    var e := 1024 - JavaDiv(size, 2);
    assert e == 1024 - 2 * k;
    var pos := RoundTo4(e);
    var q := (e + 2) / 4;
    assert pos == 4 * q;
    assert pos - e == 2 * (2 * q + k - 512);
    pos
  }

  /** The sub-array centred in the 2048 x 2048 addressable window: sizes are
      rounded to multiples of 4, and the offset `1024 - size/2` is rounded again,
      so the window is centred up to the 2-pixel error of that rounding. */
  function CenteredRoi(width: int, height: int): (r: Roi)
    ensures r.hsize == RoundTo4(width) && r.vsize == RoundTo4(height)
    ensures r.hpos % 4 == 0 && r.vpos % 4 == 0
    ensures r.hpos + r.hsize / 2 == 1024 || r.hpos + r.hsize / 2 == 1026
    ensures r.vpos + r.vsize / 2 == 1024 || r.vpos + r.vsize / 2 == 1026
  {
    var w := RoundTo4(width);
    var h := RoundTo4(height);
    Roi(CenteredOffset(w), CenteredOffset(h), w, h)
  }

  /** The five writes of `SetCenteredROI`, in the order the device receives them. */
  function CenteredRoiWrites(roi: Roi): seq<Write>
  {
    [ Write(SubarrayHPos, Num(roi.hpos as real)),
      Write(SubarrayVPos, Num(roi.vpos as real)),
      Write(SubarrayHSize, Num(roi.hsize as real)),
      Write(SubarrayVSize, Num(roi.vsize as real)),
      Write(SubarrayMode, Num(SubarrayModeOn)) ]
  }

  /** The sub-array properties; nothing else is touched by an ROI change. */
  const SubarrayProps: set<PropId> :=
    {SubarrayHPos, SubarrayVPos, SubarrayHSize, SubarrayVSize, SubarrayMode}

  /** Issues the five sub-array writes whatever the device answers; the result
      is true exactly when none of them was rejected. */
  function SetCenteredROI(d: Device, width: int, height: int, respond: Responder): (r: Reply<bool>)
    ensures r.device.writes == d.writes + CenteredRoiWrites(CenteredRoi(width, height))
    ensures r.result <==> r.device.errors == d.errors
    ensures r.result <==> EveryWriteAccepted(d, CenteredRoiWrites(CenteredRoi(width, height)), respond)
    ensures SameExcept(d.values, r.device.values, SubarrayProps)
  {
    var ws := CenteredRoiWrites(CenteredRoi(width, height));
    CenteredRoiWritesTouch(CenteredRoi(width, height));
    SetAllResultIsAnd(d, ws, respond);
    SetAll(d, ws, respond)
  }

  lemma CenteredRoiWritesTouch(roi: Roi)
    ensures PropsOf(CenteredRoiWrites(roi)) == SubarrayProps
  {
    var ws := CenteredRoiWrites(roi);
    PropsOfNamesEveryWrite(ws);
    assert ws[0].prop == SubarrayHPos && ws[1].prop == SubarrayVPos && ws[2].prop == SubarrayHSize;
    assert ws[3].prop == SubarrayVSize && ws[4].prop == SubarrayMode;
  }

  /** The writes go out in the order h-offset, v-offset, h-size, v-size, mode. */
  lemma CenteredRoiWriteOrder(roi: Roi)
    ensures |CenteredRoiWrites(roi)| == 5
    ensures CenteredRoiWrites(roi)[0].prop == SubarrayHPos
    ensures CenteredRoiWrites(roi)[1].prop == SubarrayVPos
    ensures CenteredRoiWrites(roi)[2].prop == SubarrayHSize
    ensures CenteredRoiWrites(roi)[3].prop == SubarrayVSize
    ensures CenteredRoiWrites(roi)[4] == Write(SubarrayMode, Num(SubarrayModeOn))
  {
  }

  /** A 1000 x 800 request is already aligned and lands at offsets 524 and 624. */
  lemma CenteredRoiExample()
    ensures CenteredRoi(1000, 800) == Roi(524, 624, 1000, 800)
  {
    assert RoundTo4(1000) == 1000;
    assert RoundTo4(800) == 800;
    assert RoundTo4(524) == 524;
    assert RoundTo4(624) == 624;
  }

  /** On a faithful device the ROI change succeeds and leaves the four
      geometry properties and the enabled sub-array mode in place. */
  lemma SetCenteredROIFaithful(d: Device, width: int, height: int, respond: Responder)
    requires Faithful(respond)
    ensures SetCenteredROI(d, width, height, respond).result
    ensures var v := SetCenteredROI(d, width, height, respond).device.values;
            var roi := CenteredRoi(width, height);
            && SubarrayHPos in v && v[SubarrayHPos] == Num(roi.hpos as real)
            && SubarrayVPos in v && v[SubarrayVPos] == Num(roi.vpos as real)
            && SubarrayHSize in v && v[SubarrayHSize] == Num(roi.hsize as real)
            && SubarrayVSize in v && v[SubarrayVSize] == Num(roi.vsize as real)
            && SubarrayMode in v && v[SubarrayMode] == Num(SubarrayModeOn)
  {
    var ws := CenteredRoiWrites(CenteredRoi(width, height));
    SetAllFaithful(d, ws, respond);
    OverwriteLastWins(d.values, ws, 0);
    OverwriteLastWins(d.values, ws, 1);
    OverwriteLastWins(d.values, ws, 2);
    OverwriteLastWins(d.values, ws, 3);
    OverwriteLastWins(d.values, ws, 4);
  }

  /** The mode setter: one write of an enumerated value, result ignored. */
  function SetMode(d: Device, id: PropId, m: ModeValue, respond: Responder): (r: Device)
    ensures r.writes == d.writes + [Write(id, Mode(m))]
    ensures SameExcept(d.values, r.values, {id})
    ensures r.errors == d.errors <==> respond(d.values, Write(id, Mode(m))).Some?
  {
    SetValue(d, Write(id, Mode(m)), respond).device
  }

  /** The double-valued setter: one write of a number, result ignored. */
  function SetNumber(d: Device, id: PropId, x: real, respond: Responder): (r: Device)
    ensures r.writes == d.writes + [Write(id, Num(x))]
    ensures SameExcept(d.values, r.values, {id})
    ensures r.errors == d.errors <==> respond(d.values, Write(id, Num(x))).Some?
  {
    SetValue(d, Write(id, Num(x)), respond).device
  }

  /** One binning write; the result is that write's success. */
  function SetBinning(d: Device, binSize: Int32, respond: Responder): (r: Reply<bool>)
    ensures r.device.writes == d.writes + [Write(Binning, Num(binSize as real))]
    ensures r.result <==> respond(d.values, Write(Binning, Num(binSize as real))).Some?
    ensures SameExcept(d.values, r.device.values, {Binning})
  {
    SetValue(d, Write(Binning, Num(binSize as real)), respond)
  }

  /** The input-trigger defaults: five writes, whatever the device answers,
      touching only the five input-trigger properties. */
  function SetInputTriggerDefaults(d: Device, respond: Responder): (r: Device)
    ensures r.writes == d.writes + InputTriggerDefaultWrites()
    ensures SameExcept(d.values, r.values, {TriggerMode, TriggerPolarity, TriggerConnector, TriggerTimes, TriggerDelay})
  {
    var d1 := SetMode(d, TriggerMode, TriggerModeNormal, respond);
    var d2 := SetMode(d1, TriggerPolarity, TriggerPolarityPositive, respond);
    var d3 := SetMode(d2, TriggerConnector, TriggerConnectorBnc, respond);
    var d4 := SetNumber(d3, TriggerTimes, 1.0, respond);
    SetNumber(d4, TriggerDelay, 0.0, respond)
  }

  /** The output-trigger defaults: the connector goes to BNC and nothing else changes. */
  function SetOutputTriggerDefaults(d: Device, respond: Responder): (r: Device)
    ensures r.writes == d.writes + [Write(TriggerConnector, Mode(TriggerConnectorBnc))]
    ensures SameExcept(d.values, r.values, {TriggerConnector})
    ensures r.errors == d.errors <==> respond(d.values, Write(TriggerConnector, Mode(TriggerConnectorBnc))).Some?
  {
    SetMode(d, TriggerConnector, TriggerConnectorBnc, respond)
  }

  /** A single trigger-source write: the input-trigger defaults are not reapplied
      and no other property changes. */
  function SetInputTriggerToInternal(d: Device, respond: Responder): (r: Device)
    ensures r.writes == d.writes + [Write(TriggerSource, Mode(TriggerSourceInternal))]
    ensures SameExcept(d.values, r.values, {TriggerSource})
    ensures match respond(d.values, Write(TriggerSource, Mode(TriggerSourceInternal)))
            case Some(v) => TriggerSource in r.values && r.values[TriggerSource] == v && r.errors == d.errors
            case None => r.values == d.values && r.errors == d.errors + [SetFailed(Write(TriggerSource, Mode(TriggerSourceInternal)))]
  {
    SetMode(d, TriggerSource, TriggerSourceInternal, respond)
  }

  /** A single trigger-source write: the input-trigger defaults are not reapplied
      and no other property changes. */
  function SetInputTriggerToSoftware(d: Device, respond: Responder): (r: Device)
    ensures r.writes == d.writes + [Write(TriggerSource, Mode(TriggerSourceSoftware))]
    ensures SameExcept(d.values, r.values, {TriggerSource})
    ensures match respond(d.values, Write(TriggerSource, Mode(TriggerSourceSoftware)))
            case Some(v) => TriggerSource in r.values && r.values[TriggerSource] == v && r.errors == d.errors
            case None => r.values == d.values && r.errors == d.errors + [SetFailed(Write(TriggerSource, Mode(TriggerSourceSoftware)))]
  {
    SetMode(d, TriggerSource, TriggerSourceSoftware, respond)
  }

  /** Output defaults, positive polarity, kind Exposure; only the three
      output-trigger properties change. */
  function SetOutputTriggerToExposure(d: Device, respond: Responder): (r: Device)
    ensures r.writes == d.writes + OutputTriggerWrites(OutputTriggerKindExposure)
    ensures SameExcept(d.values, r.values, {TriggerConnector, OutputTriggerPolarity, OutputTriggerKind})
  {
    var d1 := SetOutputTriggerDefaults(d, respond);
    var d2 := SetMode(d1, OutputTriggerPolarity, OutputTriggerPolarityPositive, respond);
    SetMode(d2, OutputTriggerKind, OutputTriggerKindExposure, respond)
  }

  /** Output defaults, positive polarity, kind Programmable; only the three
      output-trigger properties change. */
  function SetOutputTriggerToProgrammable(d: Device, respond: Responder): (r: Device)
    ensures r.writes == d.writes + OutputTriggerWrites(OutputTriggerKindProgrammable)
    ensures SameExcept(d.values, r.values, {TriggerConnector, OutputTriggerPolarity, OutputTriggerKind})
  {
    var d1 := SetOutputTriggerDefaults(d, respond);
    var d2 := SetMode(d1, OutputTriggerPolarity, OutputTriggerPolarityPositive, respond);
    SetMode(d2, OutputTriggerKind, OutputTriggerKindProgrammable, respond)
  }

  /** The body shared by the three external presets: input defaults, source
      External, the given trigger-active value, then output-to-exposure. */
  function SetInputTriggerToExternal(d: Device, active: ModeValue, respond: Responder): (r: Device)
    ensures r.writes == d.writes + ExternalTriggerWrites(active)
    ensures SameExcept(d.values, r.values, ExternalTriggerProps)
  {
    var d1 := SetInputTriggerDefaults(d, respond);
    var d2 := SetMode(d1, TriggerSource, TriggerSourceExternal, respond);
    var d3 := SetMode(d2, TriggerActive, active, respond);
    SetOutputTriggerToExposure(d3, respond)
  }

  function SetInputTriggerToExternalEdge(d: Device, respond: Responder): (r: Device)
    ensures r.writes == d.writes + ExternalTriggerWrites(TriggerActiveEdge)
    ensures r.writes[|d.writes| + 6] == Write(TriggerActive, Mode(TriggerActiveEdge))
    ensures SameExcept(d.values, r.values, ExternalTriggerProps)
  {
    SetInputTriggerToExternal(d, TriggerActiveEdge, respond)
  }

  function SetInputTriggerToExternalLevel(d: Device, respond: Responder): (r: Device)
    ensures r.writes == d.writes + ExternalTriggerWrites(TriggerActiveLevel)
    ensures r.writes[|d.writes| + 6] == Write(TriggerActive, Mode(TriggerActiveLevel))
    ensures SameExcept(d.values, r.values, ExternalTriggerProps)
  {
    SetInputTriggerToExternal(d, TriggerActiveLevel, respond)
  }

  function SetInputTriggerToExternalFastEdge(d: Device, respond: Responder): (r: Device)
    ensures r.writes == d.writes + ExternalTriggerWrites(TriggerActiveSyncReadout)
    ensures r.writes[|d.writes| + 6] == Write(TriggerActive, Mode(TriggerActiveSyncReadout))
    ensures SameExcept(d.values, r.values, ExternalTriggerProps)
  {
    SetInputTriggerToExternal(d, TriggerActiveSyncReadout, respond)
  }

  function SetDefectCorrectionMode(d: Device, on: bool, respond: Responder): (r: Device)
    ensures |r.writes| == |d.writes| + 1 && r.writes[..|d.writes|] == d.writes
    ensures r.writes[|d.writes|].prop == DefectCorrectMode
    ensures r.writes[|d.writes|].value == Mode(ModeOn) <==> on
    ensures r.writes[|d.writes|].value == Mode(ModeOff) <==> !on
    ensures SameExcept(d.values, r.values, {DefectCorrectMode})
  {
    SetMode(d, DefectCorrectMode, if on then ModeOn else ModeOff, respond)
  }

  // Reference write sequences of the trigger presets.

  function InputTriggerDefaultWrites(): seq<Write>
  {
    [ Write(TriggerMode, Mode(TriggerModeNormal)),
      Write(TriggerPolarity, Mode(TriggerPolarityPositive)),
      Write(TriggerConnector, Mode(TriggerConnectorBnc)),
      Write(TriggerTimes, Num(1.0)),
      Write(TriggerDelay, Num(0.0)) ]
  }

  function ExternalSourceWrites(active: ModeValue): seq<Write>
  {
    [ Write(TriggerSource, Mode(TriggerSourceExternal)),
      Write(TriggerActive, Mode(active)) ]
  }

  function OutputTriggerWrites(kind: ModeValue): seq<Write>
  {
    [ Write(TriggerConnector, Mode(TriggerConnectorBnc)),
      Write(OutputTriggerPolarity, Mode(OutputTriggerPolarityPositive)),
      Write(OutputTriggerKind, Mode(kind)) ]
  }

  function ExternalTriggerWrites(active: ModeValue): seq<Write>
  {
    InputTriggerDefaultWrites() + ExternalSourceWrites(active) + OutputTriggerWrites(OutputTriggerKindExposure)
  }

  /** One write at the head of a sequence is issued first. */
  lemma SetAllCons(d: Device, w: Write, ws: seq<Write>, respond: Responder)
    ensures SetAll(d, [w] + ws, respond).device == SetAll(SetValue(d, w, respond).device, ws, respond).device
  {
    assert ([w] + ws)[1..] == ws;
  }

  /** A single write issued through the sequence runner. */
  lemma SetAllOne(d: Device, w: Write, respond: Responder)
    ensures SetAll(d, [w], respond).device == SetValue(d, w, respond).device
  {
    SetAllCons(d, w, [], respond);
  }

  /** The input-trigger defaults preset, written as five calls, issues the
      five default writes in order. */
  lemma InputTriggerDefaultsFlat(d: Device, respond: Responder)
    ensures SetInputTriggerDefaults(d, respond) == SetAll(d, InputTriggerDefaultWrites(), respond).device
  {
    var ws := InputTriggerDefaultWrites();
    var d1 := SetMode(d, TriggerMode, TriggerModeNormal, respond);
    var d2 := SetMode(d1, TriggerPolarity, TriggerPolarityPositive, respond);
    var d3 := SetMode(d2, TriggerConnector, TriggerConnectorBnc, respond);
    var d4 := SetNumber(d3, TriggerTimes, 1.0, respond);
    SetAllCons(d, ws[0], ws[1..], respond);
    SetAllCons(d1, ws[1], ws[2..], respond);
    SetAllCons(d2, ws[2], ws[3..], respond);
    SetAllCons(d3, ws[3], ws[4..], respond);
    SetAllOne(d4, ws[4], respond);
    assert ws == [ws[0]] + ws[1..];
    assert ws[1..] == [ws[1]] + ws[2..];
    assert ws[2..] == [ws[2]] + ws[3..];
    assert ws[3..] == [ws[3]] + ws[4..];
    assert ws[4..] == [ws[4]];
  }

  lemma OutputTriggerFlatFor(d: Device, kind: ModeValue, respond: Responder)
    ensures var d1 := SetOutputTriggerDefaults(d, respond);
            var d2 := SetMode(d1, OutputTriggerPolarity, OutputTriggerPolarityPositive, respond);
            SetMode(d2, OutputTriggerKind, kind, respond) == SetAll(d, OutputTriggerWrites(kind), respond).device
  {
    var d1 := SetOutputTriggerDefaults(d, respond);
    var d2 := SetMode(d1, OutputTriggerPolarity, OutputTriggerPolarityPositive, respond);
    var ws := OutputTriggerWrites(kind);
    SetAllCons(d, ws[0], ws[1..], respond);
    SetAllCons(d1, ws[1], ws[2..], respond);
    SetAllOne(d2, ws[2], respond);
    assert ws == [ws[0]] + ws[1..];
    assert ws[1..] == [ws[1]] + ws[2..];
    assert ws[2..] == [ws[2]];
  }

  /** Both output-trigger presets are the output defaults followed by a
      polarity and a kind write. */
  lemma OutputTriggerFlat(d: Device, respond: Responder)
    ensures SetOutputTriggerToExposure(d, respond)
            == SetAll(d, OutputTriggerWrites(OutputTriggerKindExposure), respond).device
    ensures SetOutputTriggerToProgrammable(d, respond)
            == SetAll(d, OutputTriggerWrites(OutputTriggerKindProgrammable), respond).device
  {
    OutputTriggerFlatFor(d, OutputTriggerKindExposure, respond);
    OutputTriggerFlatFor(d, OutputTriggerKindProgrammable, respond);
  }

  lemma ExternalTriggerComposedFlat(d: Device, active: ModeValue, respond: Responder)
    ensures SetInputTriggerToExternal(d, active, respond)
            == SetAll(d, ExternalTriggerWrites(active), respond).device
  {
    var src := ExternalSourceWrites(active);
    var out := OutputTriggerWrites(OutputTriggerKindExposure);
    var d1 := SetInputTriggerDefaults(d, respond);
    var d2 := SetMode(d1, TriggerSource, TriggerSourceExternal, respond);
    var d3 := SetMode(d2, TriggerActive, active, respond);
    InputTriggerDefaultsFlat(d, respond);
    OutputTriggerFlat(d3, respond);
    SetAllCons(d1, src[0], src[1..], respond);
    SetAllOne(d2, src[1], respond);
    assert src == [src[0]] + src[1..];
    assert src[1..] == [src[1]];
    SetAllAppend(d, InputTriggerDefaultWrites(), src, respond);
    SetAllAppend(d, InputTriggerDefaultWrites() + src, out, respond);
  }

  /** The three external presets are the input defaults, source External,
      trigger-active, then the output-to-exposure preset. */
  lemma ExternalTriggerFlat(d: Device, respond: Responder)
    ensures SetInputTriggerToExternalEdge(d, respond)
            == SetAll(d, ExternalTriggerWrites(TriggerActiveEdge), respond).device
    ensures SetInputTriggerToExternalLevel(d, respond)
            == SetAll(d, ExternalTriggerWrites(TriggerActiveLevel), respond).device
    ensures SetInputTriggerToExternalFastEdge(d, respond)
            == SetAll(d, ExternalTriggerWrites(TriggerActiveSyncReadout), respond).device
  {
    ExternalTriggerComposedFlat(d, TriggerActiveEdge, respond);
    ExternalTriggerComposedFlat(d, TriggerActiveLevel, respond);
    ExternalTriggerComposedFlat(d, TriggerActiveSyncReadout, respond);
  }

  /** The properties the external presets touch. */
  const ExternalTriggerProps: set<PropId> :=
    {TriggerMode, TriggerPolarity, TriggerConnector, TriggerTimes, TriggerDelay,
     TriggerSource, TriggerActive, OutputTriggerPolarity, OutputTriggerKind}

  lemma InputTriggerDefaultWritesTouch()
    ensures PropsOf(InputTriggerDefaultWrites()) == {TriggerMode, TriggerPolarity, TriggerConnector, TriggerTimes, TriggerDelay}
  {
    var ws := InputTriggerDefaultWrites();
    PropsOfNamesEveryWrite(ws);
    assert ws[0].prop == TriggerMode && ws[1].prop == TriggerPolarity && ws[2].prop == TriggerConnector;
    assert ws[3].prop == TriggerTimes && ws[4].prop == TriggerDelay;
  }

  lemma ExternalSourceWritesTouch(active: ModeValue)
    ensures PropsOf(ExternalSourceWrites(active)) == {TriggerSource, TriggerActive}
  {
    var ws := ExternalSourceWrites(active);
    PropsOfNamesEveryWrite(ws);
    assert ws[0].prop == TriggerSource && ws[1].prop == TriggerActive;
  }

  lemma OutputTriggerWritesTouch(kind: ModeValue)
    ensures PropsOf(OutputTriggerWrites(kind)) == {TriggerConnector, OutputTriggerPolarity, OutputTriggerKind}
  {
    var ws := OutputTriggerWrites(kind);
    PropsOfNamesEveryWrite(ws);
    assert ws[0].prop == TriggerConnector && ws[1].prop == OutputTriggerPolarity && ws[2].prop == OutputTriggerKind;
  }

  lemma ExternalTriggerWritesTouch(active: ModeValue)
    ensures PropsOf(ExternalTriggerWrites(active)) == ExternalTriggerProps
  {
    var dw := InputTriggerDefaultWrites();
    var sw := ExternalSourceWrites(active);
    var ow := OutputTriggerWrites(OutputTriggerKindExposure);
    InputTriggerDefaultWritesTouch();
    ExternalSourceWritesTouch(active);
    OutputTriggerWritesTouch(OutputTriggerKindExposure);
    PropsOfAppend(dw, sw);
    PropsOfAppend(dw + sw, ow);
  }

  /** Whatever the device answers, an external preset issues its ten writes and
      touches only trigger properties; it logs no error exactly when every write
      was accepted. */
  lemma ExternalTriggerFrame(d: Device, active: ModeValue, respond: Responder)
    ensures SetInputTriggerToExternal(d, active, respond).writes == d.writes + ExternalTriggerWrites(active)
    ensures SetAll(d, ExternalTriggerWrites(active), respond).result
            <==> SetInputTriggerToExternal(d, active, respond).errors == d.errors
    ensures SetInputTriggerToExternal(d, active, respond).errors == d.errors
            <==> EveryWriteAccepted(d, ExternalTriggerWrites(active), respond)
    ensures SameExcept(d.values, SetInputTriggerToExternal(d, active, respond).values, ExternalTriggerProps)
  {
    SetAllResultIsAnd(d, ExternalTriggerWrites(active), respond);
    ExternalTriggerComposedFlat(d, active, respond);
    ExternalTriggerWritesTouch(active);
  }

  lemma InputTriggerDefaultsOverwrite(m: map<PropId, Value>)
    ensures var v := Overwrite(m, InputTriggerDefaultWrites());
            && v.Keys == m.Keys + {TriggerMode, TriggerPolarity, TriggerConnector, TriggerTimes, TriggerDelay}
            && v[TriggerMode] == Mode(TriggerModeNormal)
            && v[TriggerPolarity] == Mode(TriggerPolarityPositive)
            && v[TriggerConnector] == Mode(TriggerConnectorBnc)
            && v[TriggerTimes] == Num(1.0)
            && v[TriggerDelay] == Num(0.0)
  {
    var ws := InputTriggerDefaultWrites();
    OverwriteLastWins(m, ws, 0);
    OverwriteLastWins(m, ws, 1);
    OverwriteLastWins(m, ws, 2);
    OverwriteLastWins(m, ws, 3);
    OverwriteLastWins(m, ws, 4);
    OverwriteKeys(m, ws);
    InputTriggerDefaultWritesTouch();
  }

  lemma ExternalSourceOverwrite(m: map<PropId, Value>, active: ModeValue)
    ensures var v := Overwrite(m, ExternalSourceWrites(active));
            && SameExcept(m, v, {TriggerSource, TriggerActive})
            && v.Keys == m.Keys + {TriggerSource, TriggerActive}
            && v[TriggerSource] == Mode(TriggerSourceExternal)
            && v[TriggerActive] == Mode(active)
  {
    var ws := ExternalSourceWrites(active);
    OverwriteLastWins(m, ws, 0);
    OverwriteLastWins(m, ws, 1);
    OverwriteKeys(m, ws);
    OverwriteFrame(m, ws);
    ExternalSourceWritesTouch(active);
  }

  lemma OutputTriggerOverwrite(m: map<PropId, Value>, kind: ModeValue)
    ensures var v := Overwrite(m, OutputTriggerWrites(kind));
            && SameExcept(m, v, {TriggerConnector, OutputTriggerPolarity, OutputTriggerKind})
            && v.Keys == m.Keys + {TriggerConnector, OutputTriggerPolarity, OutputTriggerKind}
            && v[TriggerConnector] == Mode(TriggerConnectorBnc)
            && v[OutputTriggerPolarity] == Mode(OutputTriggerPolarityPositive)
            && v[OutputTriggerKind] == Mode(kind)
  {
    var ws := OutputTriggerWrites(kind);
    OverwriteLastWins(m, ws, 0);
    OverwriteLastWins(m, ws, 1);
    OverwriteLastWins(m, ws, 2);
    OverwriteKeys(m, ws);
    OverwriteFrame(m, ws);
    OutputTriggerWritesTouch(kind);
  }

  lemma ExternalTriggerFaithfulFlat(m: map<PropId, Value>, active: ModeValue)
    ensures var v := Overwrite(m, ExternalTriggerWrites(active));
            && ExternalTriggerProps <= v.Keys
            && v[TriggerMode] == Mode(TriggerModeNormal)
            && v[TriggerPolarity] == Mode(TriggerPolarityPositive)
            && v[TriggerConnector] == Mode(TriggerConnectorBnc)
            && v[TriggerTimes] == Num(1.0)
            && v[TriggerDelay] == Num(0.0)
            && v[TriggerSource] == Mode(TriggerSourceExternal)
            && v[TriggerActive] == Mode(active)
            && v[OutputTriggerPolarity] == Mode(OutputTriggerPolarityPositive)
            && v[OutputTriggerKind] == Mode(OutputTriggerKindExposure)
  {
    var dw := InputTriggerDefaultWrites();
    var sw := ExternalSourceWrites(active);
    var ow := OutputTriggerWrites(OutputTriggerKindExposure);
    var m1 := Overwrite(m, dw);
    var m2 := Overwrite(m1, sw);
    OverwriteAppend(m, dw, sw);
    OverwriteAppend(m, dw + sw, ow);
    InputTriggerDefaultsOverwrite(m);
    ExternalSourceOverwrite(m1, active);
    OutputTriggerOverwrite(m2, OutputTriggerKindExposure);
    assert TriggerMode !in {TriggerSource, TriggerActive};
    assert TriggerMode !in {TriggerConnector, OutputTriggerPolarity, OutputTriggerKind};
  }

  /** On a faithful device an external preset leaves the trigger configured as
      the preset names it: normal mode, positive polarity, BNC connector, one
      trigger, no delay, external source, the requested trigger-active value,
      and a positive exposure-kind output trigger. */
  lemma ExternalTriggerFaithful(d: Device, active: ModeValue, respond: Responder)
    requires Faithful(respond)
    ensures var v := SetInputTriggerToExternal(d, active, respond).values;
            && ExternalTriggerProps <= v.Keys
            && v[TriggerMode] == Mode(TriggerModeNormal)
            && v[TriggerPolarity] == Mode(TriggerPolarityPositive)
            && v[TriggerConnector] == Mode(TriggerConnectorBnc)
            && v[TriggerTimes] == Num(1.0)
            && v[TriggerDelay] == Num(0.0)
            && v[TriggerSource] == Mode(TriggerSourceExternal)
            && v[TriggerActive] == Mode(active)
            && v[OutputTriggerPolarity] == Mode(OutputTriggerPolarityPositive)
            && v[OutputTriggerKind] == Mode(OutputTriggerKindExposure)
  {
    ExternalTriggerComposedFlat(d, active, respond);
    SetAllFaithful(d, ExternalTriggerWrites(active), respond);
    ExternalTriggerFaithfulFlat(d.values, active);
  }

  /** The input-trigger defaults issue their five writes whatever the device
      answers and touch nothing else; on a faithful device the five defaults
      are in place afterwards. */
  lemma InputTriggerDefaultsEffect(d: Device, respond: Responder)
    ensures var r := SetInputTriggerDefaults(d, respond);
            && r.writes == d.writes + InputTriggerDefaultWrites()
            && SameExcept(d.values, r.values, {TriggerMode, TriggerPolarity, TriggerConnector, TriggerTimes, TriggerDelay})
    ensures Faithful(respond) ==>
              var v := SetInputTriggerDefaults(d, respond).values;
              && v.Keys == d.values.Keys + {TriggerMode, TriggerPolarity, TriggerConnector, TriggerTimes, TriggerDelay}
              && v[TriggerMode] == Mode(TriggerModeNormal)
              && v[TriggerPolarity] == Mode(TriggerPolarityPositive)
              && v[TriggerConnector] == Mode(TriggerConnectorBnc)
              && v[TriggerTimes] == Num(1.0)
              && v[TriggerDelay] == Num(0.0)
  {
    InputTriggerDefaultsFlat(d, respond);
    InputTriggerDefaultWritesTouch();
    if Faithful(respond) {
      SetAllFaithful(d, InputTriggerDefaultWrites(), respond);
      InputTriggerDefaultsOverwrite(d.values);
    }
  }

  /** An output preset issues its three writes whatever the device answers and
      touches only the connector and the two output-trigger properties; on a
      faithful device they hold BNC, positive polarity and the preset's kind. */
  lemma OutputTriggerEffect(d: Device, kind: ModeValue, respond: Responder)
    ensures var r := SetAll(d, OutputTriggerWrites(kind), respond).device;
            && r.writes == d.writes + OutputTriggerWrites(kind)
            && SameExcept(d.values, r.values, {TriggerConnector, OutputTriggerPolarity, OutputTriggerKind})
    ensures Faithful(respond) ==>
              var v := SetAll(d, OutputTriggerWrites(kind), respond).device.values;
              && v[TriggerConnector] == Mode(TriggerConnectorBnc)
              && v[OutputTriggerPolarity] == Mode(OutputTriggerPolarityPositive)
              && v[OutputTriggerKind] == Mode(kind)
  {
    OutputTriggerWritesTouch(kind);
    if Faithful(respond) {
      SetAllFaithful(d, OutputTriggerWrites(kind), respond);
      OutputTriggerOverwrite(d.values, kind);
    }
  }

  /** The output-to-exposure and output-to-programmable presets, as written,
      have the effects `OutputTriggerEffect` states for their kinds. */
  lemma OutputTriggerPresets(d: Device, respond: Responder)
    ensures SetOutputTriggerToExposure(d, respond).writes == d.writes + OutputTriggerWrites(OutputTriggerKindExposure)
    ensures SetOutputTriggerToProgrammable(d, respond).writes == d.writes + OutputTriggerWrites(OutputTriggerKindProgrammable)
    ensures SameExcept(d.values, SetOutputTriggerToExposure(d, respond).values, {TriggerConnector, OutputTriggerPolarity, OutputTriggerKind})
    ensures SameExcept(d.values, SetOutputTriggerToProgrammable(d, respond).values, {TriggerConnector, OutputTriggerPolarity, OutputTriggerKind})
    ensures Faithful(respond) ==>
              && SetOutputTriggerToExposure(d, respond).values[OutputTriggerKind] == Mode(OutputTriggerKindExposure)
              && SetOutputTriggerToProgrammable(d, respond).values[OutputTriggerKind] == Mode(OutputTriggerKindProgrammable)
  {
    OutputTriggerFlat(d, respond);
    OutputTriggerEffect(d, OutputTriggerKindExposure, respond);
    OutputTriggerEffect(d, OutputTriggerKindProgrammable, respond);
  }

  /** The external presets issue identical writes except the trigger-active value. */
  lemma ExternalPresetsDifferOnlyInActive(a: ModeValue, b: ModeValue)
    ensures |ExternalTriggerWrites(a)| == |ExternalTriggerWrites(b)| == 10
    ensures forall i :: 0 <= i < 10 && i != 6 ==> ExternalTriggerWrites(a)[i] == ExternalTriggerWrites(b)[i]
    ensures ExternalTriggerWrites(a)[6] == Write(TriggerActive, Mode(a))
    ensures ExternalTriggerWrites(b)[6] == Write(TriggerActive, Mode(b))
  {
  }

  /** The two output presets issue identical writes except the kind value. */
  lemma OutputPresetsDifferOnlyInKind()
    ensures |OutputTriggerWrites(OutputTriggerKindExposure)| == |OutputTriggerWrites(OutputTriggerKindProgrammable)| == 3
    ensures OutputTriggerWrites(OutputTriggerKindExposure)[..2] == OutputTriggerWrites(OutputTriggerKindProgrammable)[..2]
    ensures OutputTriggerWrites(OutputTriggerKindExposure)[2] == Write(OutputTriggerKind, Mode(OutputTriggerKindExposure))
    ensures OutputTriggerWrites(OutputTriggerKindProgrammable)[2] == Write(OutputTriggerKind, Mode(OutputTriggerKindProgrammable))
  {
  }
}

=== FILE: dcam_image_sequence.dfy ===
/** An image sequence: `depth` image planes of `bytesPerPixel * width *
    height` bytes each, held as a fragmented memory (one fragment per plane),
    with a freed flag and an acquisition time stamp. */
module DcamImageSequence {
  import opened Options
  import opened JavaArith

  type byte = x: int | 0 <= x < 256

  /** A fragmented memory: its fragments in plane order, and whether it has
      been freed. */
  datatype FragmentedMemory = FragmentedMemory(fragments: seq<seq<byte>>, freed: bool)

  datatype ImageSequence = ImageSequence(
    memory: FragmentedMemory,
    bytesPerPixel: int,
    width: int,
    height: int,
    depth: int,
    timeStampInNs: Int64)

  /** A freshly allocated block of `n` bytes. */
  function Zeros(n: nat): (z: seq<byte>)
    ensures |z| == n
  {
    seq(n, _ => 0)
  }

  /** The bytes of the fragments laid end to end, in plane order. */
  function Concat(fs: seq<seq<byte>>): seq<byte>
    decreases |fs|
  {
    if fs == [] then [] else Concat(fs[..|fs| - 1]) + fs[|fs| - 1]
  }

  /** The sum of the fragment sizes. */
  function TotalSize(fs: seq<seq<byte>>): nat
    decreases |fs|
  {
    if fs == [] then 0 else TotalSize(fs[..|fs| - 1]) + |fs[|fs| - 1]|
  }

  /** Every fragment is `size` bytes long. */
  ghost predicate Uniform(fs: seq<seq<byte>>, size: int)
  {
    forall k :: 0 <= k < |fs| ==> |fs[k]| == size
  }

  /** A sequence whose memory matches its declared shape: one fragment per
      plane, each exactly one plane of bytes. */
  ghost predicate Consistent(s: ImageSequence)
  {
    && s.bytesPerPixel >= 0 && s.width >= 0 && s.height >= 0
    && |s.memory.fragments| == s.depth
    && Uniform(s.memory.fragments, s.bytesPerPixel * s.width * s.height)
  }

  lemma {:induction false} ConcatLength(fs: seq<seq<byte>>)
    ensures |Concat(fs)| == TotalSize(fs)
    decreases |fs|
  {
    if fs != [] {
      ConcatLength(fs[..|fs| - 1]);
    }
  }

  /** Appending a fragment appends its bytes. */
  lemma ConcatSnoc(fs: seq<seq<byte>>, i: nat)
    requires i < |fs|
    ensures Concat(fs[..i + 1]) == Concat(fs[..i]) + fs[i]
    ensures TotalSize(fs[..i + 1]) == TotalSize(fs[..i]) + |fs[i]|
  {
    assert fs[..i + 1][..i] == fs[..i];
  }

  /** A prefix of the fragments never holds more bytes than all of them. */
  lemma {:induction false} TotalSizePrefix(fs: seq<seq<byte>>, j: nat)
    requires j <= |fs|
    ensures TotalSize(fs[..j]) <= TotalSize(fs)
    decreases |fs|
  {
    if j < |fs| {
      TotalSizePrefix(fs[..|fs| - 1], j);
      assert fs[..|fs| - 1][..j] == fs[..j];
    } else {
      assert fs[..j] == fs;
    }
  }

  /** Uniform fragments hold `count * size` bytes in total. */
  lemma {:induction false} UniformTotalSize(fs: seq<seq<byte>>, size: nat)
    requires Uniform(fs, size)
    ensures TotalSize(fs) == |fs| * size
    ensures |Concat(fs)| == |fs| * size
    decreases |fs|
  {
    ConcatLength(fs);
    if fs != [] {
      UniformTotalSize(fs[..|fs| - 1], size);
    }
  }

  /** Fragment `i` sits in the consolidated bytes right after the fragments
      before it. */
  lemma {:induction false} FragmentAt(fs: seq<seq<byte>>, i: nat)
    requires i < |fs|
    ensures TotalSize(fs[..i]) + |fs[i]| <= |Concat(fs)|
    ensures Concat(fs)[TotalSize(fs[..i]) .. TotalSize(fs[..i]) + |fs[i]|] == fs[i]
    decreases |fs|
  {
    var n := |fs|;
    var init := fs[..n - 1];
    var c := Concat(init);
    assert Concat(fs) == c + fs[n - 1];
    ConcatLength(init);
    ConcatLength(fs);
    if i < n - 1 {
      assert init[..i] == fs[..i];
      assert init[i] == fs[i];
      FragmentAt(init, i);
    } else {
      assert fs[..i] == init;
    }
  }

  /** Per-plane addressing: in the consolidated bytes of uniform fragments,
      plane `i` occupies `[i * size, (i + 1) * size)` and holds fragment `i`. */
  lemma PlaneAtOffset(fs: seq<seq<byte>>, size: nat, i: nat)
    requires Uniform(fs, size)
    requires i < |fs|
    ensures (i + 1) * size <= |Concat(fs)|
    ensures Concat(fs)[i * size .. (i + 1) * size] == fs[i]
  {
    assert Uniform(fs[..i], size) by {
      forall k | 0 <= k < i ensures |fs[..i][k]| == size {
        assert fs[..i][k] == fs[k];
      }
    }
    UniformTotalSize(fs[..i], size);
    assert |fs[i]| == size;
    assert (i + 1) * size == i * size + size;
    FragmentAt(fs, i);
  }

  /** Splitting a block into `n` consecutive fragments of `size` bytes. */
  function Split(block: seq<byte>, n: nat, size: nat): (r: seq<seq<byte>>)
    requires |block| == n * size
    ensures |r| == n
    ensures Uniform(r, size)
    decreases n
  {
    if n == 0 then []
    else Split(block[..(n - 1) * size], n - 1, size) + [block[(n - 1) * size..]]
  }

  /** The fragments of a split block, laid end to end, give back the block. */
  lemma {:induction false} SplitConcat(block: seq<byte>, n: nat, size: nat)
    requires |block| == n * size
    ensures Concat(Split(block, n, size)) == block
    decreases n
  {
    if n > 0 {
      var prefix := block[..(n - 1) * size];
      var fs := Split(block, n, size);
      SplitConcat(prefix, n - 1, size);
      assert fs[..n - 1] == Split(prefix, n - 1, size);
      assert block == prefix + block[(n - 1) * size..];
    }
  }

  /** The fragmented-allocation constructor: one independently allocated
      plane of `bytesPerPixel * width * height` bytes per step of a loop that
      runs `depth` times.  `width` and `height` are the values after the
      device's width/height adjustment.  A negative depth is stored as given
      while the loop runs zero times, leaving no fragments. */
  method AllocateFragmented(bytesPerPixel: nat, width: nat, height: nat, depth: int) returns (s: ImageSequence)
    ensures s.bytesPerPixel == bytesPerPixel && s.width == width && s.height == height && s.depth == depth
    ensures NumberOfFragments(s) == if depth < 0 then 0 else depth
    ensures forall k :: 0 <= k < |s.memory.fragments| ==> s.memory.fragments[k] == Zeros(bytesPerPixel * width * height)
    ensures SizeInBytes(s) == bytesPerPixel * width * height * (if depth < 0 then 0 else depth)
    ensures depth >= 0 <==> Consistent(s)
    ensures !IsFree(s) && s.timeStampInNs == 0
  {
    var planeBytes := bytesPerPixel * width * height;
    var planes: seq<seq<byte>> := [];
    var i := 0;
    while i < depth
      invariant 0 <= i && (depth >= 0 ==> i <= depth) && (depth < 0 ==> i == 0)
      invariant |planes| == i
      invariant forall k :: 0 <= k < i ==> planes[k] == Zeros(planeBytes)
    {
      planes := planes + [Zeros(planeBytes)];
      i := i + 1;
    }
    s := ImageSequence(FragmentedMemory(planes, false), bytesPerPixel, width, height, depth, 0);
    UniformTotalSize(planes, planeBytes);
  }

  /** The contiguous-allocation constructor: one block of `bytesPerPixel *
      width * height * depth` bytes, split into `depth` plane fragments. */
  function AllocateContiguous(bytesPerPixel: nat, width: nat, height: nat, depth: nat): (s: ImageSequence)
    ensures s.bytesPerPixel == bytesPerPixel && s.width == width && s.height == height && s.depth == depth
    ensures NumberOfFragments(s) == depth
    ensures Concat(s.memory.fragments) == Zeros(bytesPerPixel * width * height * depth)
    ensures SizeInBytes(s) == bytesPerPixel * width * height * depth
    ensures Consistent(s)
    ensures !IsFree(s) && s.timeStampInNs == 0
  {
    var planeBytes := bytesPerPixel * width * height;
    var block := Zeros(planeBytes * depth);
    SplitConcat(block, depth, planeBytes);
    ConcatLength(Split(block, depth, planeBytes));
    ImageSequence(FragmentedMemory(Split(block, depth, planeBytes), false), bytesPerPixel, width, height, depth, 0)
  }

  /** The wrapping constructor stores the shape as given and pairs it with the
      supplied memory; nothing is checked, the time stamp starts at 0. */
  function Wrap(memory: FragmentedMemory, bytesPerPixel: int, width: int, height: int, depth: int): (s: ImageSequence)
    ensures s.memory == memory
    ensures s.bytesPerPixel == bytesPerPixel && s.width == width && s.height == height && s.depth == depth
    ensures s.timeStampInNs == 0
  {
    ImageSequence(memory, bytesPerPixel, width, height, depth, 0)
  }

  /** The wrapping constructor accepts a shape its memory does not have. */
  lemma WrapChecksNothing()
    ensures var s := Wrap(FragmentedMemory([[0]], false), 2, 4, 4, 3);
            s.depth == 3 && NumberOfFragments(s) == 1 && !Consistent(s)
  {
  }

  /** `getMemoryForPlane`: fragment `i`; `None` for an index outside the
      fragment list, where the source throws. */
  function MemoryForPlane(s: ImageSequence, i: Int32): (r: Option<seq<byte>>)
    ensures r.Some? <==> 0 <= i < |s.memory.fragments|
    ensures r.Some? ==> r.value == s.memory.fragments[i]
  {
    if 0 <= i < |s.memory.fragments| then Some(s.memory.fragments[i]) else None
  }

  /** `getNumberOfFragments`: the planes `MemoryForPlane` can address are
      exactly the indices below this count. */
  function NumberOfFragments(s: ImageSequence): (n: nat)
    ensures forall i: Int32 {:trigger MemoryForPlane(s, i)} :: MemoryForPlane(s, i).Some? <==> 0 <= i < n
  {
    |s.memory.fragments|
  }

  /** `getSizeInBytes`: the length of the fragments laid end to end. */
  function SizeInBytes(s: ImageSequence): (r: nat)
    ensures r == |Concat(s.memory.fragments)|
  {
    ConcatLength(s.memory.fragments);
    TotalSize(s.memory.fragments)
  }

  /** A consistent sequence holds exactly `bytesPerPixel * width * height *
      depth` bytes. */
  lemma ConsistentSize(s: ImageSequence)
    requires Consistent(s)
    ensures SizeInBytes(s) == s.bytesPerPixel * s.width * s.height * s.depth
  {
    UniformTotalSize(s.memory.fragments, s.bytesPerPixel * s.width * s.height);
  }

  /** `consolidateTo`: copies every fragment, in plane order, to the start of
      the destination; the bytes past the copied region are left alone. */
  method ConsolidateTo(s: ImageSequence, dest: seq<byte>) returns (out: seq<byte>)
    requires SizeInBytes(s) <= |dest|
    ensures |out| == |dest|
    ensures out[..SizeInBytes(s)] == Concat(s.memory.fragments)
    ensures out[SizeInBytes(s)..] == dest[SizeInBytes(s)..]
  {
    var fs := s.memory.fragments;
    out := dest;
    var offset := 0;
    var i := 0;
    while i < |fs|
      invariant 0 <= i <= |fs|
      invariant offset == TotalSize(fs[..i]) == |Concat(fs[..i])|
      invariant offset <= |dest|
      invariant |out| == |dest|
      invariant out[..offset] == Concat(fs[..i])
      invariant out[offset..] == dest[offset..]
    {
      ConcatSnoc(fs, i);
      ConcatLength(fs[..i + 1]);
      TotalSizePrefix(fs, i + 1);
      var next := offset + |fs[i]|;
      assert dest[next..] == dest[offset..][|fs[i]|..];
      out := out[..offset] + fs[i] + out[next..];
      offset := next;
      i := i + 1;
    }
    assert fs[..i] == fs;
  }

  /** In a consolidated copy of a consistent sequence, plane `i` sits at byte
      offset `i * bytesPerPixel * width * height` and equals the memory
      `getMemoryForPlane(i)` returns. */
  lemma ConsolidatedPlane(s: ImageSequence, i: Int32)
    requires Consistent(s)
    requires 0 <= i < s.depth
    ensures var p := s.bytesPerPixel * s.width * s.height;
            && (i + 1) * p <= |Concat(s.memory.fragments)|
            && Some(Concat(s.memory.fragments)[i * p .. (i + 1) * p]) == MemoryForPlane(s, i)
  {
    PlaneAtOffset(s.memory.fragments, s.bytesPerPixel * s.width * s.height, i);
  }

  /** `getSinglePlaneImageSequence` as written: it wraps fragment `i` alone
      with depth 1, the parent's bytes per pixel and width, and the parent's
      DEPTH in the height position. */
  function SinglePlaneAsWritten(s: ImageSequence, i: Int32): (r: Option<ImageSequence>)
    ensures r.Some? <==> 0 <= i < |s.memory.fragments|
    ensures r.Some? ==> r.value.memory.fragments == [s.memory.fragments[i]] && r.value.depth == 1
    ensures r.Some? ==> r.value.height == s.depth
    ensures r.Some? ==> r.value.bytesPerPixel == s.bytesPerPixel && r.value.width == s.width
    ensures r.Some? ==> r.value.timeStampInNs == 0 && r.value.memory.freed == s.memory.freed
  {
    match MemoryForPlane(s, i)
    case None => None
    case Some(plane) =>
      Some(Wrap(FragmentedMemory([plane], s.memory.freed), s.bytesPerPixel, s.width, s.depth, 1))
  }

  /** With the depth in the height position, the single-plane sequence of a
      consistent parent claims a shape its one fragment does not have. */
  lemma SinglePlaneAsWrittenMismatch()
    ensures var parent := ImageSequence(FragmentedMemory([Zeros(32), Zeros(32), Zeros(32)], false), 2, 4, 4, 3, 0);
            && Consistent(parent)
            && SinglePlaneAsWritten(parent, 0).Some?
            && SinglePlaneAsWritten(parent, 0).value.height == 3
            && SizeInBytes(SinglePlaneAsWritten(parent, 0).value) == 32
            && !Consistent(SinglePlaneAsWritten(parent, 0).value)
  {
    var parent := ImageSequence(FragmentedMemory([Zeros(32), Zeros(32), Zeros(32)], false), 2, 4, 4, 3, 0);
    var single := SinglePlaneAsWritten(parent, 0).value;
    assert single.memory.fragments == [Zeros(32)];
    assert [Zeros(32)][..0] == [];
  }

  /** Single-plane extraction as evidently intended: fragment `i` with depth 1
      and the parent's bytes per pixel, width and height. */
  function SinglePlane(s: ImageSequence, i: Int32): (r: Option<ImageSequence>)
    ensures r.Some? <==> 0 <= i < |s.memory.fragments|
    ensures r.Some? ==> r.value.memory.fragments == [s.memory.fragments[i]] && r.value.depth == 1
    ensures r.Some? ==> r.value.bytesPerPixel == s.bytesPerPixel && r.value.width == s.width && r.value.height == s.height
    ensures r.Some? ==> r.value.timeStampInNs == 0 && r.value.memory.freed == s.memory.freed
  {
    match MemoryForPlane(s, i)
    case None => None
    case Some(plane) =>
      Some(Wrap(FragmentedMemory([plane], s.memory.freed), s.bytesPerPixel, s.width, s.height, 1))
  }

  /** The single plane of a consistent sequence is itself consistent, holds
      one plane's bytes, and consolidates to exactly that plane. */
  lemma SinglePlaneConsistent(s: ImageSequence, i: Int32)
    requires Consistent(s)
    requires 0 <= i < s.depth
    ensures var r := SinglePlane(s, i);
            && r.Some?
            && Consistent(r.value)
            && r.value.width == s.width && r.value.height == s.height && r.value.bytesPerPixel == s.bytesPerPixel
            && SizeInBytes(r.value) == s.bytesPerPixel * s.width * s.height
            && Concat(r.value.memory.fragments) == s.memory.fragments[i]
  {
    var r := SinglePlane(s, i).value;
    assert r.memory.fragments[..0] == [];
    assert |s.memory.fragments[i]| == s.bytesPerPixel * s.width * s.height;
    assert r.memory.fragments == [s.memory.fragments[i]];
    assert TotalSize(r.memory.fragments) == TotalSize([]) + |s.memory.fragments[i]|;
  }

  /** `free`: marks the memory freed; shape and contents are kept. */
  function Free(s: ImageSequence): (r: ImageSequence)
    ensures r.memory.freed
    ensures r.memory.fragments == s.memory.fragments
    ensures r.bytesPerPixel == s.bytesPerPixel && r.width == s.width && r.height == s.height && r.depth == s.depth
    ensures r.timeStampInNs == s.timeStampInNs
  {
    s.(memory := s.memory.(freed := true))
  }

  /** `isFree`: true exactly when freeing would change nothing. */
  function IsFree(s: ImageSequence): (b: bool)
    ensures b <==> Free(s) == s
  {
    s.memory.freed
  }

  /** Freeing twice is the same as freeing once. */
  lemma FreeIdempotent(s: ImageSequence)
    ensures Free(Free(s)) == Free(s)
    ensures IsFree(Free(Free(s)))
  {
  }

  /** `setTimeStampInNs`: only the time stamp changes. */
  function SetTimeStampInNs(s: ImageSequence, t: Int64): (r: ImageSequence)
    ensures r.timeStampInNs == t
    ensures r.memory == s.memory
    ensures r.bytesPerPixel == s.bytesPerPixel && r.width == s.width && r.height == s.height && r.depth == s.depth
  {
    s.(timeStampInNs := t)
  }

  /** `getTimeStampInNs`: the stamp whose re-setting changes nothing. */
  function GetTimeStampInNs(s: ImageSequence): (t: Int64)
    ensures SetTimeStampInNs(s, t) == s
    ensures forall u: Int64 :: SetTimeStampInNs(s, u) == s ==> u == t
  {
    s.timeStampInNs
  }

  /** The getter returns the last time stamp set. */
  lemma TimeStampLastWins(s: ImageSequence, t1: Int64, t2: Int64)
    ensures GetTimeStampInNs(SetTimeStampInNs(SetTimeStampInNs(s, t1), t2)) == t2
  {
  }

  /** Both allocation constructors yield the same number of fragments and the
      same total size for the same parameters. */
  lemma ContiguousShape(bytesPerPixel: nat, width: nat, height: nat, depth: nat)
    ensures var s := AllocateContiguous(bytesPerPixel, width, height, depth);
            && NumberOfFragments(s) == depth
            && SizeInBytes(s) == bytesPerPixel * width * height * depth
            && forall k :: 0 <= k < depth ==> |s.memory.fragments[k]| == bytesPerPixel * width * height
  {
  }
}

=== FILE: dcam_properties.dfy ===
/** The property registry: discovery of the properties a device supports,
    a name-keyed map of their descriptors, typed reads and writes that go to
    the device on every call, and the older centred-ROI helper. */
module DcamProperties {
  import opened Options
  import opened JavaArith
  import opened PropertyStore

  /** The type tag a descriptor carries ("long", "real", "mode"). */
  datatype TypeTag = LongType | RealType | ModeType

  /** The attribute flags the registry looks at; `OtherAttr` stands for any
      other bit of the vendor attribute word. */
  datatype AttrFlag = TypeLongFlag | TypeRealFlag | TypeModeFlag | WritableFlag | ReadableFlag | OtherAttr(bit: nat)

  /** A unit flag of the vendor unit word, by its code. */
  datatype Unit = Unit(code: int)

  /** The attribute record the device fills in for one property: the flag
      set, the unit flags in the order the flag set iterates them, and the
      numeric range. */
  datatype Attributes = Attributes(flags: set<AttrFlag>, units: seq<Unit>, min: real, max: real, step: real, default: real)

  /** One step of the device's enumeration of supported properties: the id it
      reported, the name fetch (`None` when it failed), the status of the
      attribute fetch, and the record that fetch left behind. */
  datatype Entry = Entry(id: PropId, name: Option<string>, attrFetchOk: bool, attrs: Attributes)

  datatype Descriptor = Descriptor(
    id: PropId,
    name: string,
    attributes: set<AttrFlag>,
    mode: Option<TypeTag>,
    writable: bool,
    readable: bool,
    unit: Option<Unit>,
    valueMin: real,
    valueMax: real,
    valueStep: real,
    valueDefault: real)

  type Registry = map<string, Descriptor>

  /** Priority-ordered type tag: LONG before REAL before MODE; no tag when
      none of the three flags is present. */
  function TypeTagOf(flags: set<AttrFlag>): (r: Option<TypeTag>)
    ensures r == Some(LongType) <==> TypeLongFlag in flags
    ensures r == Some(RealType) <==> TypeRealFlag in flags && TypeLongFlag !in flags
    ensures r == Some(ModeType) <==> TypeModeFlag in flags && TypeRealFlag !in flags && TypeLongFlag !in flags
    ensures r == None <==> TypeLongFlag !in flags && TypeRealFlag !in flags && TypeModeFlag !in flags
  {
    if TypeLongFlag in flags then Some(LongType)
    else if TypeRealFlag in flags then Some(RealType)
    else if TypeModeFlag in flags then Some(ModeType)
    else None
  }

  /** The first unit flag in iteration order, if any. */
  function FirstUnit(units: seq<Unit>): (r: Option<Unit>)
    ensures r.None? <==> units == []
    ensures r.Some? ==> r.value == units[0] && r.value in units
  {
    if |units| > 0 then Some(units[0]) else None
  }

  /** The descriptor built for an enumerated property under the name fetched
      for it; the attribute-fetch status plays no part. */
  function Describe(e: Entry, name: string): Descriptor
  {
    Descriptor(
      e.id, name, e.attrs.flags, TypeTagOf(e.attrs.flags),
      WritableFlag in e.attrs.flags, ReadableFlag in e.attrs.flags,
      FirstUnit(e.attrs.units),
      e.attrs.min, e.attrs.max, e.attrs.step, e.attrs.default)
  }

  /** A descriptor whose derived fields agree with its attribute flags. */
  ghost predicate Derived(p: Descriptor)
  {
    && p.mode == TypeTagOf(p.attributes)
    && p.writable == (WritableFlag in p.attributes)
    && p.readable == (ReadableFlag in p.attributes)
  }

  /** The outcome of one discovery run. */
  datatype Discovery = Discovery(props: Registry, ok: bool)

  /** Reference semantics of discovery: fold the enumeration into the map,
      stopping at the first failed name fetch. */
  function Discover(reg: Registry, entries: seq<Entry>): Discovery
    decreases |entries|
  {
    if entries == [] then Discovery(reg, true)
    else match entries[0].name
      case None => Discovery(reg, false)
      case Some(n) => Discover(reg[n := Describe(entries[0], n)], entries[1..])
  }

  /** The number of leading entries whose name fetch succeeded. */
  function NamedPrefix(entries: seq<Entry>): (k: nat)
    ensures k <= |entries|
    ensures forall i :: 0 <= i < k ==> entries[i].name.Some?
    ensures k < |entries| ==> entries[k].name.None?
    decreases |entries|
  {
    if entries == [] || entries[0].name.None? then 0 else 1 + NamedPrefix(entries[1..])
  }

  /** The names of a sequence of entries whose name fetches all succeeded. */
  function NamesOf(entries: seq<Entry>): set<string>
    requires forall i :: 0 <= i < |entries| ==> entries[i].name.Some?
  {
    set i | 0 <= i < |entries| :: entries[i].name.value
  }

  /** Discovery as the source writes it: a loop over the enumeration that
      breaks on the first failed name fetch and otherwise inserts (or
      replaces) the descriptor under its name; the map is never cleared. */
  method UpdatePropertyList(reg: Registry, entries: seq<Entry>) returns (props: Registry, ok: bool)
    ensures Discovery(props, ok) == Discover(reg, entries)
  {
    props := reg;
    ok := true;
    var i := 0;
    while i < |entries|
      invariant 0 <= i <= |entries|
      invariant Discover(props, entries[i..]) == Discover(reg, entries)
    {
      var e := entries[i];
      if e.name.None? {
        ok := false;
        break;
      }
      assert entries[i..][1..] == entries[i + 1..];
      props := props[e.name.value := Describe(e, e.name.value)];
      i := i + 1;
    }
  }

  /** Discovery succeeds exactly when no name fetch failed; attribute-fetch
      results have no say in it. */
  lemma {:induction false} DiscoverOk(reg: Registry, entries: seq<Entry>)
    ensures Discover(reg, entries).ok <==> forall i :: 0 <= i < |entries| ==> entries[i].name.Some?
    ensures Discover(reg, entries).ok <==> NamedPrefix(entries) == |entries|
    decreases |entries|
  {
    if entries != [] && entries[0].name.Some? {
      var n := entries[0].name.value;
      DiscoverOk(reg[n := Describe(entries[0], n)], entries[1..]);
      if !Discover(reg, entries).ok {
        var j :| 0 <= j < |entries[1..]| && entries[1..][j].name.None?;
        assert entries[j + 1].name.None?;
      }
    }
  }

  /** Entries after the first failed name fetch are never looked at. */
  lemma {:induction false} DiscoverStopsAtNameFailure(reg: Registry, entries: seq<Entry>)
    ensures Discover(reg, entries).props == Discover(reg, entries[..NamedPrefix(entries)]).props
    decreases |entries|
  {
    if entries != [] && entries[0].name.Some? {
      var n := entries[0].name.value;
      var k := NamedPrefix(entries);
      assert entries[..k][1..] == entries[1..][..k - 1];
      DiscoverStopsAtNameFailure(reg[n := Describe(entries[0], n)], entries[1..]);
    }
  }

  /** Discovery over fully named entries: the keys are the old keys plus the
      names seen; each seen name maps to the descriptor of its LAST entry; an
      old entry whose name is not seen survives unchanged. */
  lemma {:induction false} DiscoverNamed(reg: Registry, entries: seq<Entry>)
    requires forall i :: 0 <= i < |entries| ==> entries[i].name.Some?
    ensures Discover(reg, entries).props.Keys == reg.Keys + NamesOf(entries)
    ensures forall j :: 0 <= j < |entries| && LastWithName(entries, j) ==>
              Discover(reg, entries).props[entries[j].name.value] == Describe(entries[j], entries[j].name.value)
    ensures forall n :: n in reg && n !in NamesOf(entries) ==> Discover(reg, entries).props[n] == reg[n]
    decreases |entries|
  {
    if entries != [] {
      var n := entries[0].name.value;
      var reg' := reg[n := Describe(entries[0], n)];
      var rest := entries[1..];
      DiscoverNamed(reg', rest);
      var r := Discover(reg, entries).props;
      assert r == Discover(reg', rest).props;
      assert NamesOf(entries) == {n} + NamesOf(rest) by {
        forall x | x in NamesOf(entries) ensures x in {n} + NamesOf(rest) {
          var i :| 0 <= i < |entries| && entries[i].name.value == x;
          if i > 0 { assert rest[i - 1].name.value == x; }
        }
        forall x | x in NamesOf(rest) ensures x in NamesOf(entries) {
          var i :| 0 <= i < |rest| && rest[i].name.value == x;
          assert entries[i + 1].name.value == x;
        }
      }
      forall j | 0 <= j < |entries| && LastWithName(entries, j)
        ensures r[entries[j].name.value] == Describe(entries[j], entries[j].name.value)
      {
        if j == 0 {
          assert n !in NamesOf(rest) by {
            forall i | 0 <= i < |rest| ensures rest[i].name.value != n {
              assert rest[i] == entries[i + 1];
            }
          }
        } else {
          assert LastWithName(rest, j - 1) by {
            forall k | j - 1 < k < |rest| ensures rest[k].name.value != rest[j - 1].name.value {
              assert entries[k + 1].name.value != entries[j].name.value;
            }
          }
        }
      }
    }
  }

  /** Entry `j` is the last one carrying its name. */
  ghost predicate LastWithName(entries: seq<Entry>, j: int)
    requires forall i :: 0 <= i < |entries| ==> entries[i].name.Some?
    requires 0 <= j < |entries|
  {
    forall k :: j < k < |entries| ==> entries[k].name.value != entries[j].name.value
  }

  /** Entries that agree except for the attribute-fetch status. */
  ghost predicate SameButStatus(a: seq<Entry>, b: seq<Entry>)
  {
    && |a| == |b|
    && forall i :: 0 <= i < |a| ==> a[i].id == b[i].id && a[i].name == b[i].name && a[i].attrs == b[i].attrs
  }

  /** The attribute-fetch status never changes what discovery produces. */
  lemma {:induction false} DiscoverIgnoresAttributeStatus(reg: Registry, a: seq<Entry>, b: seq<Entry>)
    requires SameButStatus(a, b)
    ensures Discover(reg, a) == Discover(reg, b)
    decreases |a|
  {
    if a != [] && a[0].name.Some? {
      var n := a[0].name.value;
      assert Describe(a[0], n) == Describe(b[0], n);
      assert SameButStatus(a[1..], b[1..]) by {
        forall i | 0 <= i < |a[1..]|
          ensures a[1..][i].id == b[1..][i].id && a[1..][i].name == b[1..][i].name && a[1..][i].attrs == b[1..][i].attrs
        {
          assert a[1..][i] == a[i + 1] && b[1..][i] == b[i + 1];
        }
      }
      DiscoverIgnoresAttributeStatus(reg[n := Describe(a[0], n)], a[1..], b[1..]);
    }
  }

  /** Every descriptor discovery inserts has its tag and access flags derived
      from its attribute flags, and derived entries already present stay so. */
  lemma {:induction false} DiscoverDerived(reg: Registry, entries: seq<Entry>)
    requires forall n :: n in reg ==> Derived(reg[n])
    ensures forall n :: n in Discover(reg, entries).props ==> Derived(Discover(reg, entries).props[n])
    decreases |entries|
  {
    if entries != [] && entries[0].name.Some? {
      var n := entries[0].name.value;
      DiscoverDerived(reg[n := Describe(entries[0], n)], entries[1..]);
    }
  }

  /** `getProperty`: the descriptor stored under a name, `None` standing for
      the null the map returns for an unknown name. */
  function GetProperty(reg: Registry, name: string): (r: Option<Descriptor>)
    ensures r.Some? <==> name in reg
    ensures r.Some? ==> r.value == reg[name]
  {
    if name in reg then Some(reg[name]) else None
  }

  // The descriptor getters dereference `getProperty` and fail (`None`) for an
  // unknown name, where the source throws a NullPointerException.

  function GetPropertyDefaultValue(reg: Registry, name: string): (r: Option<real>)
    ensures r.None? <==> name !in reg
    ensures r.Some? ==> r.value == reg[name].valueDefault
  {
    if name in reg then Some(reg[name].valueDefault) else None
  }

  function GetPropertyMinValue(reg: Registry, name: string): (r: Option<real>)
    ensures r.None? <==> name !in reg
    ensures r.Some? ==> r.value == reg[name].valueMin
  {
    if name in reg then Some(reg[name].valueMin) else None
  }

  function GetPropertyMaxValue(reg: Registry, name: string): (r: Option<real>)
    ensures r.None? <==> name !in reg
    ensures r.Some? ==> r.value == reg[name].valueMax
  {
    if name in reg then Some(reg[name].valueMax) else None
  }

  function GetPropertySteps(reg: Registry, name: string): (r: Option<real>)
    ensures r.None? <==> name !in reg
    ensures r.Some? ==> r.value == reg[name].valueStep
  {
    if name in reg then Some(reg[name].valueStep) else None
  }

  /** Writable exactly when the descriptor's WRITABLE flag is set. */
  function IsPropertyWritable(reg: Registry, name: string): (r: Option<bool>)
    ensures r.None? <==> name !in reg
    ensures name in reg && Derived(reg[name]) ==> (r == Some(true) <==> WritableFlag in reg[name].attributes)
  {
    if name in reg then Some(reg[name].writable) else None
  }

  /** Readable exactly when the descriptor's READABLE flag is set. */
  function IsPropertyReadable(reg: Registry, name: string): (r: Option<bool>)
    ensures r.None? <==> name !in reg
    ensures name in reg && Derived(reg[name]) ==> (r == Some(true) <==> ReadableFlag in reg[name].attributes)
  {
    if name in reg then Some(reg[name].readable) else None
  }

  /** Real exactly when REAL is set and LONG is not: LONG takes priority. */
  function IsPropertyReal(reg: Registry, name: string): (r: Option<bool>)
    ensures r.None? <==> name !in reg
    ensures name in reg && Derived(reg[name]) ==>
              (r == Some(true) <==> TypeRealFlag in reg[name].attributes && TypeLongFlag !in reg[name].attributes)
  {
    if name in reg then Some(reg[name].mode == Some(RealType)) else None
  }

  /** Long exactly when the LONG flag is set. */
  function IsPropertyLong(reg: Registry, name: string): (r: Option<bool>)
    ensures r.None? <==> name !in reg
    ensures name in reg && Derived(reg[name]) ==> (r == Some(true) <==> TypeLongFlag in reg[name].attributes)
  {
    if name in reg then Some(reg[name].mode == Some(LongType)) else None
  }

  /** After discovery, the getters report the attribute record of the last
      enumerated entry carrying the name. */
  lemma DiscoveredGetters(reg: Registry, entries: seq<Entry>, j: int)
    requires forall i :: 0 <= i < |entries| ==> entries[i].name.Some?
    requires 0 <= j < |entries| && LastWithName(entries, j)
    ensures var props := Discover(reg, entries).props;
            var n := entries[j].name.value;
            var a := entries[j].attrs;
            && GetProperty(props, n) == Some(Describe(entries[j], n))
            && GetPropertyMinValue(props, n) == Some(a.min)
            && GetPropertyMaxValue(props, n) == Some(a.max)
            && GetPropertySteps(props, n) == Some(a.step)
            && GetPropertyDefaultValue(props, n) == Some(a.default)
            && IsPropertyLong(props, n) == Some(TypeLongFlag in a.flags)
            && IsPropertyReal(props, n) == Some(TypeRealFlag in a.flags && TypeLongFlag !in a.flags)
            && IsPropertyWritable(props, n) == Some(WritableFlag in a.flags)
            && IsPropertyReadable(props, n) == Some(ReadableFlag in a.flags)
  {
    DiscoverNamed(reg, entries);
    var n := entries[j].name.value;
    assert n in NamesOf(entries);
  }

  // Values are not cached: every read and write goes to the device.

  /** `getPropertyValue(id)`: the device's value, `None` for the source's NaN. */
  function GetPropertyValue(d: Device, id: PropId): (r: Reply<Option<Value>>)
    ensures r.device.values == d.values && r.device.writes == d.writes
    ensures r.result.Some? <==> id in d.values
    ensures r.result.Some? ==> r.result.value == d.values[id] && r.device.errors == d.errors
    ensures r.result.None? ==> r.device.errors == d.errors + [GetFailed(id)]
  {
    GetValue(d, id)
  }

  /** `getPropertyValue(name)`: the outer `None` is the source's
      NullPointerException for an unknown name; otherwise the read goes to the
      id the descriptor recorded. */
  function GetPropertyValueByName(reg: Registry, d: Device, name: string): (r: Option<Reply<Option<Value>>>)
    ensures r.None? <==> name !in reg
    ensures r.Some? ==> r.value == GetPropertyValue(d, reg[name].id)
  {
    if name in reg then Some(GetValue(d, reg[name].id)) else None
  }

  /** `setPropertyValue(id, value)`: one device write; true when accepted. */
  function SetPropertyValue(d: Device, id: PropId, x: real, respond: Responder): (r: Reply<bool>)
    ensures r.device.writes == d.writes + [Write(id, Num(x))]
    ensures r.result <==> respond(d.values, Write(id, Num(x))).Some?
    ensures r.result <==> r.device.errors == d.errors
    ensures SameExcept(d.values, r.device.values, {id})
  {
    SetValue(d, Write(id, Num(x)), respond)
  }

  /** `setPropertyValue(name, value)`: the write goes to the id the
      descriptor recorded; the outer `None` is the NullPointerException. */
  function SetPropertyValueByName(reg: Registry, d: Device, name: string, x: real, respond: Responder)
    : (r: Option<Reply<bool>>)
    ensures r.None? <==> name !in reg
    ensures r.Some? ==> r.value == SetPropertyValue(d, reg[name].id, x, respond)
  {
    if name in reg then Some(SetValue(d, Write(reg[name].id, Num(x)), respond)) else None
  }

  /** A name-keyed write followed by a name-keyed read on a faithful device
      reads back the written value. */
  lemma SetThenGetByName(reg: Registry, d: Device, name: string, x: real, respond: Responder)
    requires name in reg
    requires Faithful(respond)
    ensures var s := SetPropertyValueByName(reg, d, name, x, respond).value;
            && s.result
            && GetPropertyValueByName(reg, s.device, name).value.result == Some(Num(x))
  {
    SetThenGet(d, Write(reg[name].id, Num(x)), respond);
  }

  /** `setAndGetPropertyValue`: the device's effective value after the write,
      `None` for the source's NaN. */
  function SetAndGetPropertyValue(d: Device, id: PropId, x: real, respond: Responder): (r: Reply<Option<Value>>)
    ensures r.result == respond(d.values, Write(id, Num(x)))
    ensures r.device.writes == d.writes + [Write(id, Num(x))]
    ensures r.result.Some? ==> id in r.device.values && r.device.values[id] == r.result.value
    ensures r.result.None? ==> r.device.errors == d.errors + [SetGetFailed(Write(id, Num(x)))]
    ensures SameExcept(d.values, r.device.values, {id})
  {
    SetAndGetValue(d, Write(id, Num(x)), respond)
  }

  /** `getExposure`: a read of the exposure property; fails, recording one
      error, when the device holds no exposure. */
  function GetExposure(d: Device): (r: Reply<Option<Value>>)
    ensures r.result.Some? <==> ExposureTime in d.values
    ensures r.result.Some? ==> r.result.value == d.values[ExposureTime]
    ensures r.device.values == d.values && r.device.writes == d.writes
    ensures r.result.None? ==> r.device.errors == d.errors + [GetFailed(ExposureTime)]
  {
    GetPropertyValue(d, ExposureTime)
  }

  /** `setExposure`: one write of the exposure property, result ignored. */
  function SetExposure(d: Device, exposure: real, respond: Responder): (r: Device)
    ensures r.writes == d.writes + [Write(ExposureTime, Num(exposure))]
    ensures r.errors == d.errors <==> respond(d.values, Write(ExposureTime, Num(exposure))).Some?
    ensures SameExcept(d.values, r.values, {ExposureTime})
  {
    SetPropertyValue(d, ExposureTime, exposure, respond).device
  }

  /** `setAndGetExposure`: the exposure the device settled on, `None` for the
      source's NaN. */
  function SetAndGetExposure(d: Device, exposure: real, respond: Responder): (r: Reply<Option<Value>>)
    ensures r.result == respond(d.values, Write(ExposureTime, Num(exposure)))
    ensures r.result.Some? ==> ExposureTime in r.device.values && r.device.values[ExposureTime] == r.result.value
    ensures SameExcept(d.values, r.device.values, {ExposureTime})
  {
    SetAndGetPropertyValue(d, ExposureTime, exposure, respond)
  }

  /** On a faithful device an exposure write is read back unchanged, and no
      other property changes. */
  lemma ExposureRoundTrip(d: Device, exposure: real, respond: Responder)
    requires Faithful(respond)
    ensures GetExposure(SetExposure(d, exposure, respond)).result == Some(Num(exposure))
    ensures SameExcept(d.values, SetExposure(d, exposure, respond).values, {ExposureTime})
  {
    SetThenGet(d, Write(ExposureTime, Num(exposure)), respond);
  }

  /** The exposure set-and-get returns the effective exposure, which a later
      exposure read reports, even when the device snapped the request. */
  lemma SetAndGetExposureIsEffective(d: Device, exposure: real, respond: Responder)
    ensures SetAndGetExposure(d, exposure, respond).result == respond(d.values, Write(ExposureTime, Num(exposure)))
    ensures var s := SetAndGetExposure(d, exposure, respond);
            s.result.Some? ==> GetExposure(s.device).result == s.result
  {
  }

  /** A device that snaps every exposure to a fixed value: set-and-get then
      reports that value, not the request. */
  lemma SetAndGetExposureSnaps(d: Device)
    ensures var snap: Responder := (m, w) => Some(Num(0.5));
            SetAndGetExposure(d, 0.3, snap).result == Some(Num(0.5))
  {
  }

  /** The older centred-ROI offsets: `1024 - size/2` with Java's truncating
      `int` division and no rounding to multiples of 4. */
  function OldCenteredOffset(size: Int32): (pos: Int32)
    ensures size % 2 == 0 ==> pos + size / 2 == 1024
    ensures 2047 <= 2 * pos + size <= 2049
    ensures size % 2 != 0 ==> 2 * pos + size == (if size > 0 then 2049 else 2047)
  {
    1024 - JavaDiv(size, 2)
  }

  /** The five writes of the older helper, in the same order as the newer
      `setCenteredROI`: offsets, sizes, then sub-array mode 2. */
  function OldCenteredRoiWrites(width: Int32, height: Int32): seq<Write>
  {
    [ Write(SubarrayHPos, Num(OldCenteredOffset(width) as real)),
      Write(SubarrayVPos, Num(OldCenteredOffset(height) as real)),
      Write(SubarrayHSize, Num(width as real)),
      Write(SubarrayVSize, Num(height as real)),
      Write(SubarrayMode, Num(SubarrayModeOn)) ]
  }

  /** The older `setCenteredROI`: the same five writes, results ignored. */
  function SetCenteredROI(d: Device, width: Int32, height: Int32, respond: Responder): (r: Device)
    ensures r.writes == d.writes + OldCenteredRoiWrites(width, height)
  {
    SetAll(d, OldCenteredRoiWrites(width, height), respond).device
  }

  /** Truncating division shows for odd negative sizes: -3 gives offset 1025,
      where floor division would give 1026. */
  lemma OldCenteredOffsetTruncates()
    ensures OldCenteredOffset(-3) == 1025
    ensures 1024 - (-3) / 2 == 1026
  {
  }

  /** Without rounding, the older helper can place the window off the
      4-pixel grid the newer one keeps. */
  lemma OldCenteredOffsetUnaligned()
    ensures OldCenteredOffset(1002) == 523
    ensures OldCenteredOffset(1002) % 4 != 0
  {
  }
}

=== FILE: options.dfy ===
/** The optional value used wherever the camera library answers "nothing":
    a NaN read, a missing registry entry, an absent unit. */
module Options {

  datatype Option<+T> = None | Some(value: T)

}

/** Java integer arithmetic that differs from Dafny's mathematical integers. */
module JavaArith {

  /** The values of a Java `int`. */
  type Int32 = x: int | -0x8000_0000 <= x < 0x8000_0000

  /** The values of a Java `long`. */
  type Int64 = x: int | -0x8000_0000_0000_0000 <= x < 0x8000_0000_0000_0000

  /** Java's `/` on integers: the quotient is truncated toward zero, whereas
      Dafny's `/` rounds toward negative infinity for a positive divisor. */
  function JavaDiv(a: int, b: int): (q: int)
    requires b > 0
    ensures 0 <= a ==> 0 <= a - q * b < b
    ensures a < 0 ==> -b < a - q * b <= 0
  {
    if a >= 0 then a / b else -((-a) / b)
  }

  /** Halving an even number is exact, so there truncation and floor agree. */
  lemma JavaHalfOfEven(a: int)
    requires a % 2 == 0
    ensures JavaDiv(a, 2) == a / 2
    ensures JavaDiv(a, 2) * 2 == a
  {
  }
}

=== FILE: property_store.dfy ===
/** The camera as the property layer sees it: a store of property values
    keyed by property identifier, an append-only log of the writes issued to
    it, and an error list.  A failed vendor call is assumed to append exactly
    one record to that list and a successful one none, the device and its
    property layer sharing the one list.  Whether the device accepts a write,
    and which value it settles on, is decided by a `Responder` supplied by the
    caller, so no particular vendor answer is assumed. */
module PropertyStore {
  import opened Options

  /** The vendor property identifiers the configuration code writes by name,
      and `Raw(code)` for any other identifier the device may report during
      discovery.  The vendor's numeric codes are not part of this model: a
      discovered property that is one of the named identifiers is reported
      under that constructor, never as `Raw`. */
  datatype PropId =
    | ExposureTime
    | SubarrayHPos | SubarrayVPos | SubarrayHSize | SubarrayVSize | SubarrayMode
    | Binning
    | TriggerMode | TriggerPolarity | TriggerConnector | TriggerTimes | TriggerDelay
    | TriggerSource | TriggerActive
    | OutputTriggerPolarity | OutputTriggerKind
    | DefectCorrectMode
    | Raw(code: int)

  /** The enumerated values written to mode-typed properties. */
  datatype ModeValue =
    | TriggerModeNormal
    | TriggerPolarityPositive
    | TriggerConnectorBnc
    | TriggerSourceInternal | TriggerSourceExternal | TriggerSourceSoftware
    | TriggerActiveEdge | TriggerActiveLevel | TriggerActiveSyncReadout
    | OutputTriggerPolarityPositive
    | OutputTriggerKindExposure | OutputTriggerKindProgrammable
    | ModeOn | ModeOff

  /** A property value: a number written with the double-valued setter, or an
      enumerated value written with the mode setter. */
  datatype Value = Num(x: real) | Mode(m: ModeValue)

  datatype Write = Write(prop: PropId, value: Value)

  /** The sub-array mode value that enables the sub-array set by the
      position and size writes before it. */
  const SubarrayModeOn: real := 2.0

  datatype DeviceError =
    | SetFailed(write: Write)
    | GetFailed(prop: PropId)
    | SetGetFailed(write: Write)

  datatype Device = Device(values: map<PropId, Value>, writes: seq<Write>, errors: seq<DeviceError>)

  /** The device after a call, together with what the call returned. */
  datatype Reply<T> = Reply(device: Device, result: T)

  /** The device's answer to a write given its current values: `None` is a
      vendor error, `Some(v)` means the device now holds `v` (which may differ
      from the requested value when the device snaps it). */
  type Responder = (map<PropId, Value>, Write) -> Option<Value>

  /** A device that accepts every write and stores exactly the requested value. */
  ghost predicate Faithful(respond: Responder)
  {
    forall m, w :: respond(m, w) == Some(w.value)
  }

  /** `m2` agrees with `m1` on every identifier outside `ids`. */
  ghost predicate SameExcept(m1: map<PropId, Value>, m2: map<PropId, Value>, ids: set<PropId>)
  {
    forall id :: id !in ids ==> (id in m1 <==> id in m2) && (id in m1 ==> m1[id] == m2[id])
  }

  /** The identifiers a write sequence touches. */
  function PropsOf(ws: seq<Write>): set<PropId>
    decreases |ws|
  {
    if ws == [] then {} else {ws[0].prop} + PropsOf(ws[1..])
  }

  /** A property is touched exactly when some write names it. */
  lemma {:induction false} PropsOfNamesEveryWrite(ws: seq<Write>)
    ensures forall id :: id in PropsOf(ws) <==> exists i :: 0 <= i < |ws| && ws[i].prop == id
    decreases |ws|
  {
    if ws != [] {
      PropsOfNamesEveryWrite(ws[1..]);
      forall id | id in PropsOf(ws) ensures exists i :: 0 <= i < |ws| && ws[i].prop == id {
        if id != ws[0].prop {
          assert id in PropsOf(ws[1..]);
          var i :| 0 <= i < |ws[1..]| && ws[1..][i].prop == id;
          assert ws[i + 1].prop == id;
        }
      }
      forall id | exists i :: 0 <= i < |ws| && ws[i].prop == id ensures id in PropsOf(ws) {
        var i :| 0 <= i < |ws| && ws[i].prop == id;
        if i > 0 {
          assert ws[1..][i - 1].prop == id;
        }
      }
    }
  }

  /** One property write: it is always issued (logged); the device's answer
      decides whether the value changes or an error is recorded. */
  function SetValue(d: Device, w: Write, respond: Responder): (r: Reply<bool>)
  {
    match respond(d.values, w)
    case Some(v) => Reply(Device(d.values[w.prop := v], d.writes + [w], d.errors), true)
    case None => Reply(Device(d.values, d.writes + [w], d.errors + [SetFailed(w)]), false)
  }

  /** A property read: the stored value, or an error when the device does not
      hold the property (the source's NaN is `None`). */
  function GetValue(d: Device, id: PropId): (r: Reply<Option<Value>>)
  {
    if id in d.values then Reply(d, Some(d.values[id]))
    else Reply(Device(d.values, d.writes, d.errors + [GetFailed(id)]), None)
  }

  /** The device-side set-then-read-back: the result is the value the device
      settled on, not necessarily the requested one. */
  function SetAndGetValue(d: Device, w: Write, respond: Responder): (r: Reply<Option<Value>>)
  {
    match respond(d.values, w)
    case Some(v) => Reply(Device(d.values[w.prop := v], d.writes + [w], d.errors), Some(v))
    case None => Reply(Device(d.values, d.writes + [w], d.errors + [SetGetFailed(w)]), None)
  }

  /** Issues every write in order; a rejected write does not stop the later
      ones, and the result is the conjunction of the individual results. */
  function SetAll(d: Device, ws: seq<Write>, respond: Responder): (r: Reply<bool>)
    ensures r.device.writes == d.writes + ws
    ensures |d.errors| <= |r.device.errors| <= |d.errors| + |ws|
    ensures r.device.errors[..|d.errors|] == d.errors
    ensures r.result <==> r.device.errors == d.errors
    ensures SameExcept(d.values, r.device.values, PropsOf(ws))
    decreases |ws|
  {
    if ws == [] then Reply(d, true)
    else
      var first := SetValue(d, ws[0], respond);
      var rest := SetAll(first.device, ws[1..], respond);
      assert ws == [ws[0]] + ws[1..];
      Reply(rest.device, first.result && rest.result)
  }

  /** Every write of `ws` is accepted by the device in the state the writes
      before it left it. */
  ghost predicate EveryWriteAccepted(d: Device, ws: seq<Write>, respond: Responder)
  {
    forall k :: 0 <= k < |ws| ==> respond(SetAll(d, ws[..k], respond).device.values, ws[k]).Some?
  }

  /** The sequence runner's result is the conjunction of the device's answers:
      true exactly when no write was rejected. */
  lemma {:induction false} SetAllResultIsAnd(d: Device, ws: seq<Write>, respond: Responder)
    ensures SetAll(d, ws, respond).result <==> EveryWriteAccepted(d, ws, respond)
    decreases |ws|
  {
    if ws != [] {
      var d1 := SetValue(d, ws[0], respond).device;
      SetAllResultIsAnd(d1, ws[1..], respond);
      assert ws[..0] == [];
      forall k | 0 <= k < |ws| - 1
        ensures SetAll(d, ws[..k + 1], respond).device == SetAll(d1, ws[1..][..k], respond).device
        ensures ws[k + 1] == ws[1..][k]
      {
        assert ws[..k + 1][0] == ws[0];
        assert ws[..k + 1][1..] == ws[1..][..k];
      }
    }
  }

  /** Reference semantics of a write sequence on an ideal device: each write
      overwrites its property. */
  function Overwrite(m: map<PropId, Value>, ws: seq<Write>): map<PropId, Value>
    decreases |ws|
  {
    if ws == [] then m else Overwrite(m[ws[0].prop := ws[0].value], ws[1..])
  }

  /** Splitting a write sequence: running `a + b` is running `a` then `b`, and
      succeeds exactly when both parts succeed. */
  lemma {:induction false} SetAllAppend(d: Device, a: seq<Write>, b: seq<Write>, respond: Responder)
    ensures SetAll(d, a + b, respond).device == SetAll(SetAll(d, a, respond).device, b, respond).device
    ensures SetAll(d, a + b, respond).result
            == (SetAll(d, a, respond).result && SetAll(SetAll(d, a, respond).device, b, respond).result)
    decreases |a|
  {
    if a == [] {
      assert a + b == b;
    } else {
      var first := SetValue(d, a[0], respond);
      assert (a + b)[0] == a[0];
      assert (a + b)[1..] == a[1..] + b;
      SetAllAppend(first.device, a[1..], b, respond);
    }
  }

  /** On a faithful device every write succeeds and the store ends as the
      reference overwrite semantics says. */
  lemma {:induction false} SetAllFaithful(d: Device, ws: seq<Write>, respond: Responder)
    requires Faithful(respond)
    ensures SetAll(d, ws, respond).result
    ensures SetAll(d, ws, respond).device.values == Overwrite(d.values, ws)
    decreases |ws|
  {
    if ws != [] {
      assert respond(d.values, ws[0]) == Some(ws[0].value);
      SetAllFaithful(SetValue(d, ws[0], respond).device, ws[1..], respond);
    }
  }

  /** The last write to a property decides its final value. */
  lemma {:induction false} OverwriteLastWins(m: map<PropId, Value>, ws: seq<Write>, j: int)
    requires 0 <= j < |ws|
    requires forall k :: j < k < |ws| ==> ws[k].prop != ws[j].prop
    ensures ws[j].prop in Overwrite(m, ws)
    ensures Overwrite(m, ws)[ws[j].prop] == ws[j].value
    decreases |ws|
  {
    if j == 0 {
      OverwriteUntouched(m[ws[0].prop := ws[0].value], ws[1..], ws[0].prop);
    } else {
      OverwriteLastWins(m[ws[0].prop := ws[0].value], ws[1..], j - 1);
    }
  }

  /** A property no write touches keeps its presence and value. */
  lemma {:induction false} OverwriteUntouched(m: map<PropId, Value>, ws: seq<Write>, id: PropId)
    requires forall k :: 0 <= k < |ws| ==> ws[k].prop != id
    ensures id in Overwrite(m, ws) <==> id in m
    ensures id in m ==> Overwrite(m, ws)[id] == m[id]
    decreases |ws|
  {
    if ws != [] {
      OverwriteUntouched(m[ws[0].prop := ws[0].value], ws[1..], id);
    }
  }

  /** Reading a property back after a successful write yields the value the
      device settled on; on a faithful device that is the written value. */
  lemma SetThenGet(d: Device, w: Write, respond: Responder)
    ensures SetValue(d, w, respond).result ==>
              GetValue(SetValue(d, w, respond).device, w.prop).result == respond(d.values, w)
    ensures Faithful(respond) ==>
              GetValue(SetValue(d, w, respond).device, w.prop).result == Some(w.value)
  {
  }

  /** A read never changes the store or the write log; it fails exactly when
      the property is absent, and then records one error. */
  lemma GetValueReadsOnly(d: Device, id: PropId)
    ensures GetValue(d, id).device.values == d.values
    ensures GetValue(d, id).device.writes == d.writes
    ensures GetValue(d, id).result.None? <==> id !in d.values
    ensures GetValue(d, id).result.Some? ==> GetValue(d, id).result.value == d.values[id]
    ensures GetValue(d, id).result.None? ==> GetValue(d, id).device.errors == d.errors + [GetFailed(id)]
  {
  }

  /** Set-and-get returns the device's effective value, which a later read
      reports, and touches no other property. */
  lemma SetAndGetEffective(d: Device, w: Write, respond: Responder)
    ensures SetAndGetValue(d, w, respond).result == respond(d.values, w)
    ensures SetAndGetValue(d, w, respond).device.writes == d.writes + [w]
    ensures SetAndGetValue(d, w, respond).result.Some? ==>
              GetValue(SetAndGetValue(d, w, respond).device, w.prop).result
              == SetAndGetValue(d, w, respond).result
    ensures SameExcept(d.values, SetAndGetValue(d, w, respond).device.values, {w.prop})
  {
  }

  lemma {:induction false} PropsOfAppend(a: seq<Write>, b: seq<Write>)
    ensures PropsOf(a + b) == PropsOf(a) + PropsOf(b)
    decreases |a|
  {
    if a == [] {
      assert a + b == b;
    } else {
      assert (a + b)[1..] == a[1..] + b;
      PropsOfAppend(a[1..], b);
    }
  }

  /** Overwriting with `a + b` is overwriting with `a`, then with `b`. */
  lemma {:induction false} OverwriteAppend(m: map<PropId, Value>, a: seq<Write>, b: seq<Write>)
    ensures Overwrite(m, a + b) == Overwrite(Overwrite(m, a), b)
    decreases |a|
  {
    if a == [] {
      assert a + b == b;
    } else {
      assert (a + b)[1..] == a[1..] + b;
      OverwriteAppend(m[a[0].prop := a[0].value], a[1..], b);
    }
  }

  /** Overwriting adds exactly the touched properties to the store. */
  lemma {:induction false} OverwriteKeys(m: map<PropId, Value>, ws: seq<Write>)
    ensures Overwrite(m, ws).Keys == m.Keys + PropsOf(ws)
    decreases |ws|
  {
    if ws != [] {
      OverwriteKeys(m[ws[0].prop := ws[0].value], ws[1..]);
    }
  }

  /** Overwriting changes nothing outside the touched properties. */
  lemma {:induction false} OverwriteFrame(m: map<PropId, Value>, ws: seq<Write>)
    ensures SameExcept(m, Overwrite(m, ws), PropsOf(ws))
    decreases |ws|
  {
    if ws != [] {
      OverwriteFrame(m[ws[0].prop := ws[0].value], ws[1..]);
    }
  }
}
